=== FILE: README.md ===
# log-parser pairing model

A Dafny model of the log parser: it reads hospital log lines and pairs each
patient's admissions ("new patient") with their discharges ("patient
discharged"). It then prints one report line per pair and the number of
pairs. The model covers the following:

- **`LogType`** (`LogTypes`): the two categories and their labels.
- **The `LogEntry` constructor and accessors** (`Patterns`, `LogEntries`):
  - the timestamp prefix `^(.+[\d:]{8} \d{4})`, as the longest qualifying prefix;
  - the id token `\b\d+-\w{1,3}-\w+\b`, as the leftmost match with ASCII word characters;
  - the three ways construction fails, in the order the constructor checks them;
  - `equals` and `hashCode`, which look at the full line only.
- **`readLogFile`, per line** (`Loader`): every category whose label a line contains gives one constructor call.
  - The first failing call aborts the whole run.
  - The loop of `main` over the files is modelled too.
- **`extractPairs`** (`Pairing`): the recursive pairing of one id's group.
  - Removal goes through `equals`, so it works on the line text.
- **`main`, lines 19-34** (`Sorting`, `Runner`):
  - a stable sort by instant;
  - grouping by id;
  - pairing each group, with discharges as primary and admissions as secondary;
  - a stable sort of the pairs by key;
  - the report and the count.
- **`makeReport`** (`Reports`).

Entries are immutable values (`Entry`), and a pair is two `Option<Entry>`
slots: `start` is the admission and `end` the discharge. A Java `String` is
modelled as a `seq<char>`. A `char` is one Unicode scalar value: for text in
the Basic Multilingual Plane that is one UTF-16 code unit, but a supplementary
character is one `char` here and two units in Java, so its hash and lengths are
not modelled. An instant is an `int` produced by a date parser, which is a
parameter.

Behaviour the model reproduces from the code:
- When a discharge is paired, its admission is the first admission in list
  order that is strictly earlier. Because groups are sorted by instant, that
  is the earliest one (`Runner.MatchedAdmissionIsEarliest`). The other
  earlier admissions are removed and never reported. For A1 < A2 < D the
  result is (A1, D) (`Pairing.SupersededAdmissionScenario`). A "most recent
  admission" reading would give (A2, D) instead. The model follows the code.
- A line is checked against every category: a line that holds both labels
  gives two entries, admission first (`Loader.ClassifyLine`,
  `Loader.BothLabelsScenario`). It is not classified by the first label that
  matches. The model follows the code.
- With no discharge left, exactly one pair is emitted, holding the first
  remaining admission. Any further admissions are dropped
  (`Pairing.NoDischargeRound`, `Pairing.TrailingAdmissionsDroppedScenario`).
- The two entries from a line with both labels are `equals` to each other.
  `remove(discharge)` therefore takes out the admission, and the discharge
  is paired twice (`Pairing.SharedLineScenario`). The counting theorems
  (`Pairing.EveryDischargePairedOnce`, `Runner.EveryDischargeReportedOnce`)
  require distinct lines for this reason.

The source paths below are relative to the repository root.

## Model

| member | source | states |
|---|---|---|
| LogTypes.LogType.Label | src/main/java/com/parser/LogType.java:13-16 | `toString`: the label given at construction, "new patient" or "patient discharged" (no contract of its own; `LogTypes.LabelIdentifiesType` states the labels differ) |
| LogTypes.FromLabel | src/main/java/com/parser/LogType.java:4-5 | not a Java method: the inverse of the label table, used to state that the labels are distinct; its result has the given label, and `None` only when no category has it |
| LogTypes.LabelIdentifiesType | src/main/java/com/parser/LogType.java:4-5 | the two labels are distinct: a category's label leads back to that category |
| LogTypes.ValuesListsEachTypeOnce | src/main/java/com/parser/LogType.java:3-5 | `values()` has exactly two elements, `NEW_PATIENT` then `PATIENT_DISCHARGED`, and every category is among them |
| Patterns.LongestTimestampUpTo | src/main/java/com/parser/LogEntry.java:14 | the longest prefix up to k that matches the timestamp pattern; nothing longer up to k matches; `None` only when no prefix up to k matches |
| Patterns.TimestampPrefix | src/main/java/com/parser/LogEntry.java:14 | greedy `.+`: the result matches and no longer prefix does; `None` only when no prefix matches at all |
| Patterns.TimestampHasNoTerminator | src/main/java/com/parser/LogEntry.java:14 | `.` does not cross a line terminator, so a matched timestamp holds none |
| Patterns.DigitRunEnd | src/main/java/com/parser/LogEntry.java:16 | the maximal run of digits from i: all digits, and the next character (if any) is not a digit |
| Patterns.WordRunEnd | src/main/java/com/parser/LogEntry.java:16 | the maximal run of word characters from i |
| Patterns.IdMatchFrom | src/main/java/com/parser/LogEntry.java:16 | one attempt of the id pattern at one start position; no contract of its own, `Patterns.IdMatchFromCorrect` states what it finds |
| Patterns.IdMatchFromCorrect | src/main/java/com/parser/LogEntry.java:16 | the scanner at i finds an id token exactly when one starts at i, and returns its end |
| Patterns.IdMatchIsUnique | src/main/java/com/parser/LogEntry.java:16 | an id token starting at i has a single possible end, because of the closing `\b` |
| Patterns.IdSearchFrom | src/main/java/com/parser/LogEntry.java:16 | the first token start at or after i; no token starts before it; `None` when no token starts at or after i |
| Patterns.FindIdToken | src/main/java/com/parser/LogEntry.java:16 | the leftmost id token of the line; `None` exactly when the line has none |
| Patterns.IdTokenChars | src/main/java/com/parser/LogEntry.java:16 | an id token consists of word characters and hyphens only |
| Patterns.CollapseDoubleSpaces | src/main/java/com/parser/LogEntry.java:34 | `replaceAll("  ", " ")`, left to right without overlap: never longer; what it keeps and changes is stated by the lemmas below |
| Patterns.CollapseKeepsNonSpaces | src/main/java/com/parser/LogEntry.java:34 | every character other than a space survives, in order |
| Patterns.CollapseChangesOnlyDoubleSpaces | src/main/java/com/parser/LogEntry.java:34 | a text without a double space comes back unchanged; a text with one comes back strictly shorter |
| Patterns.CollapseEvenRun | src/main/java/com/parser/LogEntry.java:34 | a leading run of 2k spaces becomes k spaces, followed by the rest collapsed |
| Patterns.CollapseOddRun | src/main/java/com/parser/LogEntry.java:34 | a run of 2k + 1 spaces that ends at a non-space becomes k + 1 spaces: the odd space is kept |
| Patterns.CollapseNonSpaceHead | src/main/java/com/parser/LogEntry.java:34 | (the first character is not a space) it is copied and the scan goes on after it, so runs anywhere in the text are collapsed as the run lemmas say |
| Patterns.CollapsePaddedDayExample | src/main/java/com/parser/LogEntry.java:34 | the space-padded day `Jan  5` becomes `Jan 5` |
| LogEntries.Make | src/main/java/com/parser/LogEntry.java:24-42 | fails with TimestampNotFound exactly when no prefix matches; fails with TimestampUnparsable only when the parser rejects the collapsed timestamp; fails with IdNotFound only when the timestamp parsed and the line has no id token; on success, the line and category are stored as given, the timestamp is the longest matching prefix with its own spacing, the instant is the parse of the collapsed timestamp, and the id is the leftmost token |
| LogEntries.TimestampOfIsUnique | src/main/java/com/parser/LogEntry.java:27-29 | the captured timestamp is determined by the line |
| LogEntries.MakeSucceedsIff | src/main/java/com/parser/LogEntry.java:24-42 | construction succeeds if and only if a timestamp prefix exists and parses and the line holds an id token |
| LogEntries.WrapInt | src/main/java/com/parser/LogEntry.java:81-84 | 32-bit wrap-around: the result is in the signed 32-bit range and congruent to the input modulo 2^32 |
| LogEntries.PolyHorner | src/main/java/com/parser/LogEntry.java:83 | the documented sum s[0]·31^(n-1) + … + s[n-1] satisfies the recurrence h = 31·h + c over the characters |
| LogEntries.StringHash | src/main/java/com/parser/LogEntry.java:83 | `String.hashCode`: within the signed 32-bit range and congruent modulo 2^32 to the documented sum s[0]·31^(n-1) + … + s[n-1] |
| LogEntries.WrapIntUnique | src/main/java/com/parser/LogEntry.java:83 | a value in the signed 32-bit range congruent to x modulo 2^32 is the wrap-around of x |
| LogEntries.StringHashIsWrappedSum | src/main/java/com/parser/LogEntry.java:83 | the line hash is exactly the documented sum wrapped to a Java `int` |
| LogEntries.HashCode | src/main/java/com/parser/LogEntry.java:81-84 | `Objects.hash(fullLine)`: within the signed 32-bit range and congruent modulo 2^32 to 31 + the documented sum of the line |
| LogEntries.Equal | src/main/java/com/parser/LogEntry.java:69-79 | `equals`: two entries are equal exactly when their full lines are; category, timestamp, id and instant are ignored (no contract of its own; `LogEntries.EqualEntriesHashAlike` relates it to the hash) |
| LogEntries.EqualEntriesHashAlike | src/main/java/com/parser/LogEntry.java:69-84 | entries with the same line have the same hash code, and equality ignores the category |
| LogEntries.HashCodeExample | src/main/java/com/parser/LogEntry.java:81-84 | `Objects.hash` of the line "ab" is 31 + 31·'a' + 'b' |
| Loader.ContainsFrom | src/main/java/com/parser/Utils.java:86 | true exactly when the label occurs at some position at or after i |
| Loader.Contains | src/main/java/com/parser/Utils.java:86 | `String.contains`: true exactly when the label occurs somewhere in the line |
| Loader.LineKinds | src/main/java/com/parser/Utils.java:85-86 | a category is selected exactly when it is requested and its label occurs in the line |
| Loader.LineRequests | src/main/java/com/parser/Utils.java:85-88 | one constructor call per selected category, in category order, each with the line itself |
| Loader.Requests | src/main/java/com/parser/Utils.java:84-89 | a call (line, category) is made exactly when the line is in the file, the category is requested and the line contains its label |
| Loader.RequestsAppend | src/main/java/com/parser/Utils.java:84-85 | lines are handled in file order: the calls for two runs of lines are those of the first run followed by those of the second |
| Loader.CollectAll | src/main/java/com/parser/Utils.java:84-89 | an uncaught constructor exception ends the loop: the result is an error exactly when some call fails, and then it is the first failing call's error; otherwise there is one result per call, in call order |
| Loader.CollectedEntries | src/main/java/com/parser/Utils.java:87 | every entry collected is its call's line with its call's category, with a clean timestamp and id |
| Loader.EntriesMatchRequests | src/main/java/com/parser/Utils.java:84-89 | entries in call order are exactly the requested lines and categories, and every requested pair gives an entry |
| Loader.ReadLogFile | src/main/java/com/parser/Utils.java:81-94 | every entry read is a line of the file, built with a requested category whose label that line contains |
| Loader.ReadLogFileComplete | src/main/java/com/parser/Utils.java:84-89 | when the file reads without error, every line and requested category whose label the line contains gives an entry with that line and category |
| Loader.ReadLogFileInOrder | src/main/java/com/parser/Utils.java:84-89 | when the file reads without error, entries come in call order: line by line, and within a line category by category |
| Loader.ReadLogFileFails | src/main/java/com/parser/Utils.java:84-89 | a failing file fails with the constructor error of one of its lines and a category whose label that line contains |
| Loader.CollectConcat | src/main/java/com/parser/Runner.java:18 | appending per-file results: succeeds exactly when every file succeeds; every entry comes from some file; an error is the error of the first failing file, every earlier file having succeeded |
| Loader.ReadFiles | src/main/java/com/parser/Runner.java:18 | `files.forEach` stops at the first throw: reading succeeds exactly when every file reads; every entry is read from some file; an error is the first failing file's error |
| Loader.ReadFilesInFileOrder | src/main/java/com/parser/Runner.java:18 | when reading succeeds, the entries of the first file come before those of the remaining files |
| Loader.ClassifyLine | src/main/java/com/parser/Utils.java:85-88 | with `values()` requested: no label gives no call; one label gives a call for that category; both labels give two calls, the admission first |
| Loader.BothLabelsScenario | src/main/java/com/parser/Utils.java:85-88 | a concrete line holding both labels gives an admission call and then a discharge call |
| Pairing.FirstOfKind | src/main/java/com/parser/Utils.java:103-105 | the index of the first entry of the category; no earlier entry has it; the length of the group when there is none |
| Pairing.FindFirst | src/main/java/com/parser/Utils.java:103-109 | `filter(type).findFirst()`: the first entry of the category in list order; `None` exactly when there is none |
| Pairing.OfKind | src/main/java/com/parser/Utils.java:104 | exactly the group's entries of the category |
| Pairing.Earlier | src/main/java/com/parser/Utils.java:113-117 | exactly the entries of the secondary category whose instant is strictly before the bound |
| Pairing.RemoveAll | src/main/java/com/parser/Utils.java:120 | `removeAll`: keeps exactly the entries whose line no removed entry has; strictly shrinks when something listed is present |
| Pairing.FirstWithLine | src/main/java/com/parser/Utils.java:125 | the index of the first entry with the line, which exists whenever some entry has that line |
| Pairing.RemoveFirst | src/main/java/com/parser/Utils.java:125 | `remove`: keeps only entries of the group, and drops exactly one when some entry has the line |
| Pairing.RemoveFirstCutsFirstMatch | src/main/java/com/parser/Utils.java:125 | `remove` cuts out exactly the first entry equal to x and leaves the group alone when there is none |
| Pairing.NextGroup | src/main/java/com/parser/Utils.java:118-125 | the next round's group is strictly smaller and holds no admission earlier than the matched discharge |
| Pairing.ExtractPairs | src/main/java/com/parser/Utils.java:96-129 | empty result exactly for an empty group; every side present comes from the group with its slot's category; an admission paired with a discharge is strictly earlier |
| Pairing.EarlierHead | src/main/java/com/parser/Utils.java:113-119 | `secondary.get(0)` is the first strictly earlier admission in list order |
| Pairing.NoDischargeRound | src/main/java/com/parser/Utils.java:106-111 | for a non-empty group with no discharge, exactly one pair: empty discharge slot, and the first admission in list order, or nothing when there is none |
| Pairing.DischargeRound | src/main/java/com/parser/Utils.java:112-126 | the first pair ends in the first discharge; its admission is the first strictly earlier one, or absent exactly when none is earlier; the rest is the pairing of the next group |
| Pairing.RemoveEarlierContents | src/main/java/com/parser/Utils.java:120 | with distinct lines, `removeAll(secondary)` drops exactly the earlier admissions |
| Pairing.NextGroupContents | src/main/java/com/parser/Utils.java:113-125 | with distinct lines, the next group is the group minus the discharge and minus every earlier admission; later admissions stay |
| Pairing.RemoveFirstContents | src/main/java/com/parser/Utils.java:125 | with distinct lines, `remove(d)` drops d and nothing else |
| Pairing.ExtractPairsFilled | src/main/java/com/parser/Utils.java:96-129 | with distinct categories, every pair has at least one side |
| Pairing.OnlyLastPairOpen | src/main/java/com/parser/Utils.java:106-111 | only the last pair of a group can lack a discharge |
| Pairing.OfKindHead | src/main/java/com/parser/Utils.java:103-105 | the first of the category's entries is the first entry of that category |
| Pairing.RemoveAllKeepsKind | src/main/java/com/parser/Utils.java:120 | when no removed entry shares a line with an entry of the category, `removeAll` leaves that category's entries untouched, in order |
| Pairing.RemoveFirstOfKind | src/main/java/com/parser/Utils.java:125 | with distinct lines, removing the first discharge drops exactly the head of the discharge list |
| Pairing.EveryDischargePairedOnce | src/main/java/com/parser/Utils.java:124-126 | with distinct lines, the discharges of the pairs are exactly the group's discharges, each once, in list order |
| Pairing.SupersededAdmissionScenario | src/main/java/com/parser/Utils.java:113-120 | A1 < A2 < D gives the single pair (A1, D), and A2 is never reported |
| Pairing.TrailingAdmissionsDroppedScenario | src/main/java/com/parser/Utils.java:106-111 | two admissions and no discharge give one pair with the first admission |
| Pairing.LaterAdmissionStaysScenario | src/main/java/com/parser/Utils.java:115-116 | an admission later than the discharge is not consumed and is reported afterwards on its own |
| Pairing.SharedLineScenario | src/main/java/com/parser/Utils.java:120-125 | a line with both labels: `remove` takes the admission, so the discharge is paired twice |
| Reports.Fields | src/main/java/com/parser/Utils.java:139-153 | an absent side shows " --- " for both its time and its full line; a present side shows its own; the id is the admission's if present, else the discharge's |
| Reports.FormatLine | src/main/java/com/parser/Utils.java:22-23 | `REPORT_PATTERN` with its five `%s` filled in order (no contract of its own) |
| Reports.RenderPair | src/main/java/com/parser/Utils.java:154 | the formatted line of one pair (no contract of its own; `Reports.RenderPairOnOneLine` and `Reports.RenderAll` state its use) |
| Reports.RenderAll | src/main/java/com/parser/Utils.java:138-155 | one formatted line per pair, in list order |
| Reports.MakeReport | src/main/java/com/parser/Utils.java:131-158 | (every pair has a side) the report is empty exactly when there are no pairs; otherwise it ends with the line separator, so the last line is terminated too |
| Reports.TerminateEndsWithSeparator | src/main/java/com/parser/Utils.java:154-155 | (at least one line) joining lines with a separator after each ends with that separator |
| Reports.RenderPairOnOneLine | src/main/java/com/parser/Utils.java:154 | a pair whose fields hold no newline renders to one line |
| Reports.SplitTerminated | src/main/java/com/parser/Utils.java:138-157 | separator-terminated newline-free lines read back as the same lines |
| Reports.ReportHasOneLinePerPair | src/main/java/com/parser/Utils.java:131-158 | when every pair has a side and no field holds a newline, the report reads back as exactly one line per pair, in list order, each that pair's rendering |
| Reports.OpenStartScenario | src/main/java/com/parser/Utils.java:139-153 | a discharge without admission shows the placeholder on the start side and the discharge's own id |
| Sorting.WithKey | src/main/java/com/parser/Runner.java:19 | the elements with a given key, never more than the input |
| Sorting.Insert | src/main/java/com/parser/Runner.java:19 | inserting adds exactly x to the multiset and keeps a sorted input sorted |
| Sorting.Sort | src/main/java/com/parser/Runner.java:19 | the result is a permutation of the input and sorted by the key |
| Sorting.InsertKeepsKeyOrder | src/main/java/com/parser/Runner.java:19 | inserting puts x first among its key and changes no other key's elements |
| Sorting.SortIsStable | src/main/java/com/parser/Runner.java:19 | `List.sort` is stable: elements with equal keys keep their relative order |
| Runner.GroupOf | src/main/java/com/parser/Runner.java:21 | an id's list holds exactly the entries with that id |
| Runner.GroupOfSorted | src/main/java/com/parser/Runner.java:19-21 | grouping a sorted list gives sorted groups |
| Runner.Ids | src/main/java/com/parser/Runner.java:21 | the keys of the map: every id that occurs, each once |
| Runner.GroupsAreSorted | src/main/java/com/parser/Runner.java:19-21 | each group handed to `extractPairs` is in ascending instant order |
| Runner.PairGroups | src/main/java/com/parser/Runner.java:21-23 | every pair has a side, is ordered, has both sides with the same id, and has a discharge in the discharge slot and an admission in the admission slot |
| Runner.PairKey | src/main/java/com/parser/Runner.java:24-28 | the comparator's key: the admission's instant when there is an admission, else the discharge's (no contract of its own; `Runner.MatchPairs` states the pairs are sorted by it) |
| Runner.MatchPairs | src/main/java/com/parser/Runner.java:19-28 | the final list is a permutation of the grouped pairs, sorted by the admission instant (else the discharge instant), every pair well formed |
| Runner.WellFormedRearranged | src/main/java/com/parser/Runner.java:19-28 | rearranging the pairs or the entries keeps every pair well formed |
| Runner.Finish | src/main/java/com/parser/Runner.java:19-34 | the count is the number of pairs; the pairs are sorted and well formed |
| Runner.Run | src/main/java/com/parser/Runner.java:18-34 | fails exactly when some file fails, with the first failing file's error; otherwise the count equals the number of pairs, which are sorted by key and drawn from the entries read |
| Runner.ReportLinesMatchTotal | src/main/java/com/parser/Runner.java:31-34 | with newline-free input lines, the report has exactly "Total lines" lines, the k-th being the k-th pair's rendering |
| Runner.FinishReportLines | src/main/java/com/parser/Runner.java:31-34 | for clean entries, the report lines match the pairs one by one |
| Runner.EntriesOnOneLine | src/main/java/com/parser/Runner.java:18 | entries read from newline-free lines have no newline in their fields |
| Runner.PairsOnOneLine | src/main/java/com/parser/Runner.java:24-31 | pairs built from such entries render on one line each |
| Runner.EarlierSorted | src/main/java/com/parser/Utils.java:113-117 | the earlier admissions of a sorted group are sorted |
| Runner.MatchedAdmissionIsEarliest | src/main/java/com/parser/Utils.java:113-119 | in a sorted group, the admission paired with the first discharge has the smallest instant among the earlier admissions |
| Runner.DischargesPermutation | src/main/java/com/parser/Runner.java:24-28 | sorting the pairs permutes their discharges |
| Runner.PairGroupsDischarges | src/main/java/com/parser/Runner.java:21-23 | with distinct lines, the grouped pairs end in each group's discharges, group by group |
| Runner.OfKindCount | src/main/java/com/parser/Utils.java:104 | an entry occurs among its category as often as in the group |
| Runner.GroupOfCount | src/main/java/com/parser/Runner.java:21 | an entry occurs in its id's group as often as in the input |
| Runner.GroupedKindCount | src/main/java/com/parser/Runner.java:21-23 | with each id visited once, an entry's count in the grouped discharges is its count in the input |
| Runner.DistinctLinesPermutation | src/main/java/com/parser/Runner.java:19 | sorting keeps the lines distinct |
| Runner.FinishReportsEveryDischargeOnce | src/main/java/com/parser/Runner.java:19-28 | with distinct lines, the pairs of the pipeline itself (ids in the order `Finish` visits them) hold every input discharge exactly once |
| Runner.EveryDischargeReportedOnce | src/main/java/com/parser/Runner.java:19-28 | with distinct lines and any id order listing each id once, the final pair list's discharges are the input's discharges, each exactly once |

## Left out

- File discovery (`processArgs`, `pullFilesFromArg`, `pullFilesFromDirTree`) and `Files.lines` are left out, because they are I/O. A file is modelled as the sequence of its lines, without terminators.
- `writeReport`, `System.out.println` and the no-argument early exit in `main` are left out, because they are I/O. The report text and the count are returned as values instead.
- Date parsing (`LocalDateTime.parse` with English month names, read as UTC) is a parameter `string -> Option<int>`. `None` stands for a parse exception, and only the order of instants matters.
- `String.format` is written as concatenation of the five values.
- `System.lineSeparator()` is fixed to "\n".
- Regex character classes are ASCII: digits for `\d`, `[A-Za-z0-9_]` for `\w`, and the word boundary `\b` (`Patterns.WordBoundary`) decided with that same ASCII `\w`. Before JDK 19, Java's `\b` counts any Unicode letter or digit as a word character, so lines with non-ASCII letters next to an id are not modelled. `.` excludes the Java line terminators.
- The iteration order of the `HashMap` built by `groupingBy` is unspecified. `Runner.MatchPairs` takes the id order as a parameter, and its lemmas hold for every order that lists each id once. `Runner.Run` uses one fixed order: the ids ordered by their last occurrence in the sorted entries.
- `extractPairs` on a `null` group is left out, because Dafny sequences are never null. `main` never passes one.
- `Runner.PairKey`: the comparator would throw on a pair with both sides null. The model gives such a pair key 0, and `Runner.PairGroups` proves no such pair reaches the sort.
- `LogEntries.StringHash`: a Java `String` hashes UTF-16 code units. Here a `char` is one Unicode scalar value: for text in the Basic Multilingual Plane that is one UTF-16 code unit, but a supplementary character is one `char` here and two units in Java, so its hash and lengths are not modelled.
- `Loader.ReadFiles`: its contract states membership and the first failing file's error. File order is stated separately by `Loader.ReadFilesInFileOrder`.
- `Reports.Fields`: it requires a pair with at least one side. On a pair with both sides null, the source would throw at `Utils.java` line 153 by dereferencing null. That path is not modelled, because `Pairing.ExtractPairsFilled` and `Runner.PairGroups` show no such pair reaches the report.
- The `IOException` wrapping in `readLogFile` is left out, because reading is not modelled.

=== FILE: loader.dfy ===
/**
 * The per-line work of `Utils.readLogFile` and the loop of `Runner.main`
 * over the files. Every line is checked against every requested category
 * in turn, and each category whose label occurs anywhere in the line gives
 * one entry: a line holding both labels gives two. The first line that
 * cannot be turned into an entry aborts the whole run, as the exception
 * thrown by the constructor is not caught anywhere.
 *
 * Reading files is not modelled: a file is the sequence of its lines, as
 * `Files.lines` hands them over (without their line terminators).
 */
module Loader {
  import opened Wrappers
  import opened LogTypes
  import opened LogEntries
  import opened Patterns

  /** `sub` occurs in `s` starting at position `i`. */
  predicate OccursAt(s: string, sub: string, i: int) {
    0 <= i && i + |sub| <= |s| && s[i..i + |sub|] == sub
  }

  /** Whether `sub` occurs in `s` at some position `i` or later. */
  function ContainsFrom(s: string, sub: string, i: nat): (r: bool)
    ensures r <==> exists j :: i <= j && OccursAt(s, sub, j)
    decreases |s| - i
  {
    if i + |sub| > |s| then false
    else if s[i..i + |sub|] == sub then
      assert OccursAt(s, sub, i);
      true
    else ContainsFrom(s, sub, i + 1)
  }

  /** `String.contains`. */
  function Contains(s: string, sub: string): (r: bool)
    ensures r <==> exists j :: OccursAt(s, sub, j)
  {
    ContainsFrom(s, sub, 0)
  }

  /** One constructor call the loop makes: the line and the category it is built with. */
  datatype Request = Request(line: string, kind: LogType)

  /** The categories of `types` whose label the line contains, in the order of `types`. */
  function LineKinds(line: string, types: seq<LogType>): (r: seq<LogType>)
    ensures forall t :: t in r <==> t in types && Contains(line, t.Label())
    ensures |r| <= |types|
  {
    if |types| == 0 then []
    else (if Contains(line, types[0].Label()) then [types[0]] else []) + LineKinds(line, types[1..])
  }

  /** The constructor calls for one line, in category order. */
  function LineRequests(line: string, kinds: seq<LogType>): (r: seq<Request>)
    ensures |r| == |kinds|
    ensures forall k :: 0 <= k < |r| ==> r[k] == Request(line, kinds[k])
    ensures forall q :: q in r <==> q.line == line && q.kind in kinds
  {
    if |kinds| == 0 then []
    else
      assert kinds == [kinds[0]] + kinds[1..];
      [Request(line, kinds[0])] + LineRequests(line, kinds[1..])
  }

  /** The constructor calls for a whole file: line by line, and within a line category by category. */
  function Requests(lines: seq<string>, types: seq<LogType>): (r: seq<Request>)
    ensures forall q :: q in r <==> q.line in lines && q.kind in types && Contains(q.line, q.kind.Label())
  {
    if |lines| == 0 then []
    else
      assert forall l :: l in lines <==> l == lines[0] || l in lines[1..] by {
        assert lines == [lines[0]] + lines[1..];
      }
      LineRequests(lines[0], LineKinds(lines[0], types)) + Requests(lines[1..], types)
  }

  /** The calls for two runs of lines are the calls for the first run followed by those for the second: line order is kept. */
  lemma {:induction false} RequestsAppend(a: seq<string>, b: seq<string>, types: seq<LogType>)
    ensures Requests(a + b, types) == Requests(a, types) + Requests(b, types)
  {
    if |a| == 0 {
      assert a + b == b;
    } else {
      assert (a + b)[0] == a[0];
      assert (a + b)[1..] == a[1..] + b;
      RequestsAppend(a[1..], b, types);
    }
  }

  /** Index of the first element on which f fails; |xs| when it fails on none. */
  function FirstFailure<A, B, E>(xs: seq<A>, f: A -> Result<B, E>): (k: nat)
    ensures k <= |xs|
    ensures forall j :: 0 <= j < k ==> f(xs[j]).Ok?
    ensures k < |xs| ==> f(xs[k]).Err?
  {
    if |xs| == 0 then 0
    else if f(xs[0]).Err? then 0
    else 1 + FirstFailure(xs[1..], f)
  }

  /**
   * Applies f to the elements in order, collecting the results; the first
   * failure is the outcome. This is how a thrown exception ends a loop.
   */
  function CollectAll<A, B, E>(xs: seq<A>, f: A -> Result<B, E>): (r: Result<seq<B>, E>)
    ensures r.Err? <==> FirstFailure(xs, f) < |xs|
    ensures r.Err? ==> f(xs[FirstFailure(xs, f)]) == Err(r.error)
    ensures r.Ok? ==> |r.value| == |xs|
    ensures r.Ok? ==> forall k :: 0 <= k < |xs| ==> f(xs[k]) == Ok(r.value[k])
  {
    if |xs| == 0 then Ok([])
    else
      match f(xs[0])
      case Err(err) => Err(err)
      case Ok(y) =>
        var rest := CollectAll(xs[1..], f);
        assert FirstFailure(xs, f) == 1 + FirstFailure(xs[1..], f);
        match rest
        case Err(err) =>
          assert xs[1..][FirstFailure(xs[1..], f)] == xs[FirstFailure(xs, f)];
          Err(err)
        case Ok(ys) =>
          assert forall k :: 0 < k < |xs| ==> xs[k] == xs[1..][k - 1];
          Ok([y] + ys)
  }

  /** One constructor call. */
  function Build(parse: DateParser): Request -> Result<Entry, LineError> {
    (q: Request) => Make(q.line, q.kind, parse)
  }

  /** The timestamp holds no line terminator and the id only word characters and hyphens. */
  predicate CleanFields(e: Entry) {
    && (forall c :: c in e.timeStamp ==> !IsLineTerminator(c))
    && (forall c :: c in e.id ==> IsWordChar(c) || c == '-')
  }

  /** Every collected entry is the request's line, built with the request's category, with clean fields. */
  lemma CollectedEntries(reqs: seq<Request>, parse: DateParser)
    requires CollectAll(reqs, Build(parse)).Ok?
    ensures var es := CollectAll(reqs, Build(parse)).value;
            |es| == |reqs| && forall k :: 0 <= k < |reqs| ==> es[k].fullLine == reqs[k].line && es[k].kind == reqs[k].kind
    ensures forall e :: e in CollectAll(reqs, Build(parse)).value ==> CleanFields(e)
  {
    var es := CollectAll(reqs, Build(parse)).value;
    forall k | 0 <= k < |reqs|
      ensures es[k].fullLine == reqs[k].line && es[k].kind == reqs[k].kind && CleanFields(es[k])
    {
      assert Make(reqs[k].line, reqs[k].kind, parse) == Ok(es[k]);
    }
  }

  /** Entries built from requests are exactly the requested lines and categories. */
  lemma EntriesMatchRequests(lines: seq<string>, types: seq<LogType>, es: seq<Entry>)
    requires var reqs := Requests(lines, types);
             |es| == |reqs| && forall k :: 0 <= k < |reqs| ==> es[k].fullLine == reqs[k].line && es[k].kind == reqs[k].kind
    ensures forall e :: e in es ==> e.fullLine in lines && e.kind in types && Contains(e.fullLine, e.kind.Label())
    ensures forall l, t :: l in lines && t in types && Contains(l, t.Label()) ==>
              exists e :: e in es && e.fullLine == l && e.kind == t
  {
    var reqs := Requests(lines, types);
    forall e | e in es
      ensures e.fullLine in lines && e.kind in types && Contains(e.fullLine, e.kind.Label())
    {
      var k :| 0 <= k < |es| && es[k] == e;
      assert reqs[k] in reqs;
    }
    forall l, t | l in lines && t in types && Contains(l, t.Label())
      ensures exists e :: e in es && e.fullLine == l && e.kind == t
    {
      assert Request(l, t) in reqs;
      var k :| 0 <= k < |reqs| && reqs[k] == Request(l, t);
      assert es[k] in es;
    }
  }

  /** An entry a file can yield: one of its lines, built with a requested category whose label the line contains. */
  ghost predicate EntryOfFile(e: Entry, lines: seq<string>, types: seq<LogType>) {
    e.fullLine in lines && e.kind in types && Contains(e.fullLine, e.kind.Label()) && CleanFields(e)
  }

  /**
   * `readLogFile(file, types)` over the lines of one file: every entry is a
   * line of the file built with a category whose label that line contains.
   */
  function ReadLogFile(lines: seq<string>, types: seq<LogType>, parse: DateParser): (r: Result<seq<Entry>, LineError>)
    ensures r.Ok? ==> forall e :: e in r.value ==> EntryOfFile(e, lines, types)
  {
    var reqs := Requests(lines, types);
    var r := CollectAll(reqs, Build(parse));
    if r.Ok? then
      CollectedEntries(reqs, parse);
      EntriesMatchRequests(lines, types, r.value);
      r
    else
      r
  }

  /** Every line and category whose label the line contains gives an entry. */
  lemma ReadLogFileComplete(lines: seq<string>, types: seq<LogType>, parse: DateParser)
    requires ReadLogFile(lines, types, parse).Ok?
    ensures forall l, t :: l in lines && t in types && Contains(l, t.Label()) ==>
              exists e :: e in ReadLogFile(lines, types, parse).value && e.fullLine == l && e.kind == t
  {
    var reqs := Requests(lines, types);
    CollectedEntries(reqs, parse);
    EntriesMatchRequests(lines, types, ReadLogFile(lines, types, parse).value);
  }

  /** The entries come in the order of the constructor calls: line by line, and within a line category by category. */
  lemma ReadLogFileInOrder(lines: seq<string>, types: seq<LogType>, parse: DateParser)
    requires ReadLogFile(lines, types, parse).Ok?
    ensures var es := ReadLogFile(lines, types, parse).value;
            var reqs := Requests(lines, types);
            |es| == |reqs| && forall k :: 0 <= k < |reqs| ==> es[k].fullLine == reqs[k].line && es[k].kind == reqs[k].kind
  {
    CollectedEntries(Requests(lines, types), parse);
  }

  /** A failing file fails with the error of a line and category it requested. */
  lemma ReadLogFileFails(lines: seq<string>, types: seq<LogType>, parse: DateParser)
    requires ReadLogFile(lines, types, parse).Err?
    ensures exists l, t :: l in lines && t in types && Contains(l, t.Label())
                        && Make(l, t, parse) == Err(ReadLogFile(lines, types, parse).error)
  {
    var reqs := Requests(lines, types);
    var q := reqs[FirstFailure(reqs, Build(parse))];
    assert q in reqs;
    assert Make(q.line, q.kind, parse) == Err(ReadLogFile(lines, types, parse).error);
  }

  /**
   * Applies f to the elements in order and appends the results; the first
   * failure is the outcome.
   */
  function CollectConcat<A, B(==), E(==)>(xs: seq<A>, f: A -> Result<seq<B>, E>): (r: Result<seq<B>, E>)
    ensures r.Ok? <==> forall i :: 0 <= i < |xs| ==> f(xs[i]).Ok?
    ensures r.Ok? ==> forall y :: y in r.value ==> exists i :: 0 <= i < |xs| && f(xs[i]).Ok? && y in f(xs[i]).value
    ensures r.Err? ==> exists i :: 0 <= i < |xs| && f(xs[i]) == Err(r.error) && forall j :: 0 <= j < i ==> f(xs[j]).Ok?
  {
    if |xs| == 0 then Ok([])
    else
      var head := f(xs[0]);
      var tail := CollectConcat(xs[1..], f);
      assert forall i :: 0 < i < |xs| ==> xs[i] == xs[1..][i - 1];
      if head.Err? then Err(head.error)
      else if tail.Err? then
        var i :| 0 <= i < |xs[1..]| && f(xs[1..][i]) == Err(tail.error) && forall j :: 0 <= j < i ==> f(xs[1..][j]).Ok?;
        assert xs[1..][i] == xs[i + 1];
        assert forall j :: 0 <= j < i + 1 ==> f(xs[j]).Ok? by {
          forall j | 0 <= j < i + 1
            ensures f(xs[j]).Ok?
          {
            if j > 0 {
              assert xs[j] == xs[1..][j - 1];
            }
          }
        }
        Err(tail.error)
      else
        assert forall y :: y in tail.value ==> exists i :: 0 <= i < |xs| && f(xs[i]).Ok? && y in f(xs[i]).value by {
          forall y | y in tail.value
            ensures exists i :: 0 <= i < |xs| && f(xs[i]).Ok? && y in f(xs[i]).value
          {
            var i :| 0 <= i < |xs[1..]| && f(xs[1..][i]).Ok? && y in f(xs[1..][i]).value;
            assert xs[1..][i] == xs[i + 1];
          }
        }
        Ok(head.value + tail.value)
  }

  /** `readLogFile` with every category of `LogType.values()` requested. */
  function ReadOne(parse: DateParser): seq<string> -> Result<seq<Entry>, LineError> {
    (lines: seq<string>) => ReadLogFile(lines, Values, parse)
  }

  /** What an entry read from the files promises: a line of some file, with a label of its category, and clean fields. */
  ghost predicate ReadFrom(e: Entry, files: seq<seq<string>>) {
    exists i :: 0 <= i < |files| && EntryOfFile(e, files[i], Values)
  }

  /**
   * The loop of `Runner.main` over the files: the entries of each file, in
   * file order, appended one after the other, with every label of
   * `LogType.values()` requested; the first failing line aborts.
   */
  function ReadFiles(files: seq<seq<string>>, parse: DateParser): (r: Result<seq<Entry>, LineError>)
    ensures r.Ok? <==> forall i :: 0 <= i < |files| ==> ReadLogFile(files[i], Values, parse).Ok?
    ensures r.Ok? ==> forall e :: e in r.value ==> ReadFrom(e, files)
    ensures r.Err? ==> exists i :: 0 <= i < |files| && ReadLogFile(files[i], Values, parse) == Err(r.error)
                                   && forall j :: 0 <= j < i ==> ReadLogFile(files[j], Values, parse).Ok?
  {
    var f := ReadOne(parse);
    var r := CollectConcat(files, f);
    assert r.Ok? <==> forall i :: 0 <= i < |files| ==> ReadLogFile(files[i], Values, parse).Ok? by {
      forall i | 0 <= i < |files|
        ensures f(files[i]) == ReadLogFile(files[i], Values, parse)
      {
      }
    }
    if r.Ok? then
      assert forall e :: e in r.value ==> ReadFrom(e, files) by {
        forall e | e in r.value
          ensures ReadFrom(e, files)
        {
          var i :| 0 <= i < |files| && f(files[i]).Ok? && e in f(files[i]).value;
          assert e in ReadLogFile(files[i], Values, parse).value;
        }
      }
      r
    else
      var i :| 0 <= i < |files| && f(files[i]) == Err(r.error) && forall j :: 0 <= j < i ==> f(files[j]).Ok?;
      assert ReadLogFile(files[i], Values, parse) == Err(r.error);
      assert forall j :: 0 <= j < i ==> ReadLogFile(files[j], Values, parse).Ok? by {
        forall j | 0 <= j < i
          ensures ReadLogFile(files[j], Values, parse).Ok?
        {
          assert f(files[j]).Ok?;
        }
      }
      r
  }

  /** The entries of the files come file by file, in file order. */
  lemma ReadFilesInFileOrder(files: seq<seq<string>>, parse: DateParser)
    requires |files| > 0 && ReadFiles(files, parse).Ok?
    ensures ReadLogFile(files[0], Values, parse).Ok? && ReadFiles(files[1..], parse).Ok?
    ensures ReadFiles(files, parse).value == ReadLogFile(files[0], Values, parse).value + ReadFiles(files[1..], parse).value
  {
    var f := ReadOne(parse);
    assert f(files[0]) == ReadLogFile(files[0], Values, parse);
    assert ReadFiles(files, parse) == CollectConcat(files, f);
    assert ReadFiles(files[1..], parse) == CollectConcat(files[1..], f);
  }

  /**
   * A line with neither label gives no entry; a line with both gives two
   * constructor calls, the admission first, since `values()` lists
   * `NEW_PATIENT` first.
   */
  lemma ClassifyLine(line: string)
    ensures !Contains(line, NewPatient.Label()) && !Contains(line, PatientDischarged.Label()) ==>
              LineKinds(line, Values) == []
    ensures Contains(line, NewPatient.Label()) && !Contains(line, PatientDischarged.Label()) ==>
              LineKinds(line, Values) == [NewPatient]
    ensures !Contains(line, NewPatient.Label()) && Contains(line, PatientDischarged.Label()) ==>
              LineKinds(line, Values) == [PatientDischarged]
    ensures Contains(line, NewPatient.Label()) && Contains(line, PatientDischarged.Label()) ==>
              LineKinds(line, Values) == [NewPatient, PatientDischarged]
  {
    assert Values[1..][1..] == [];
  }

  /** `String.contains` worked out on a line holding both labels. */
  lemma BothLabelsScenario()
    ensures LineKinds("new patient, patient discharged", Values) == [NewPatient, PatientDischarged]
  {
    var s := "new patient, patient discharged";
    assert OccursAt(s, NewPatient.Label(), 0) by {
      assert s[0..11] == "new patient";
    }
    assert OccursAt(s, PatientDischarged.Label(), 13) by {
      assert s[13..31] == "patient discharged";
    }
    ClassifyLine(s);
  }
}

=== FILE: log_entry.dfy ===
/**
 * One classified log line (`LogEntry`): its category, the line itself,
 * the timestamp text, the patient id and the parsed instant. Construction
 * can fail, so it is a function returning a `Result` rather than a
 * constructor that throws.
 */
module LogEntries {
  import opened Wrappers
  import opened LogTypes
  import opened Patterns

  /** The getters of `LogEntry`, as fields. */
  datatype Entry = Entry(kind: LogType, fullLine: string, timeStamp: string, id: string, instant: int)

  /** Why construction fails, in the order the constructor checks. */
  datatype LineError =
    | TimestampNotFound(line: string)
    | TimestampUnparsable(timeStamp: string)
    | IdNotFound(line: string)

  /**
   * Date parsing (`LocalDateTime.parse` with "MMM d HH:mm:ss yyyy", English
   * month names, read as UTC) is not modelled: it is a parameter that maps
   * the text to an instant, or to `None` where the parse would throw.
   */
  type DateParser = string -> Option<int>

  /** `ts` is what `group(1)` captures for the timestamp pattern: the longest matching prefix of `line`. */
  ghost predicate IsTimestampOf(line: string, ts: string) {
    && |ts| <= |line|
    && ts == line[..|ts|]
    && TimestampMatch(line, |ts|)
    && forall k :: |ts| < k ==> !TimestampMatch(line, k)
  }

  /** `id` is what `group(1)` captures for the id pattern: the leftmost token of `line`. */
  ghost predicate IsIdOf(line: string, id: string) {
    exists i, e :: 0 <= i <= e <= |line| && LeftmostIdAt(line, i, e) && line[i..e] == id
  }

  /**
   * The constructor: find the timestamp prefix (or fail), parse its text
   * with double spaces collapsed (or fail), then find the id token (or
   * fail). The stored timestamp keeps the line's own spacing.
   */
  function Make(line: string, kind: LogType, parse: DateParser): (r: Result<Entry, LineError>)
    ensures (forall k :: !TimestampMatch(line, k)) <==> r == Err(TimestampNotFound(line))
    ensures r.Err? && r.error.TimestampUnparsable? ==>
              IsTimestampOf(line, r.error.timeStamp) && parse(CollapseDoubleSpaces(r.error.timeStamp)).None?
    ensures r.Err? && r.error.IdNotFound? ==>
              r.error.line == line && NoIdToken(line)
              && exists ts :: IsTimestampOf(line, ts) && parse(CollapseDoubleSpaces(ts)).Some?
    ensures r.Ok? ==> r.value.fullLine == line && r.value.kind == kind
    ensures r.Ok? ==> IsTimestampOf(line, r.value.timeStamp)
    ensures r.Ok? ==> parse(CollapseDoubleSpaces(r.value.timeStamp)) == Some(r.value.instant)
    ensures r.Ok? ==> IsIdOf(line, r.value.id)
    ensures r.Ok? ==> forall c :: c in r.value.id ==> IsWordChar(c) || c == '-'
    ensures r.Ok? ==> forall c :: c in r.value.timeStamp ==> !IsLineTerminator(c)
  {
    match TimestampPrefix(line)
    case None => Err(TimestampNotFound(line))
    case Some(k) =>
      var ts := line[..k];
      assert IsTimestampOf(line, ts);
      TimestampHasNoTerminator(line, k);
      match parse(CollapseDoubleSpaces(ts))
      case None => Err(TimestampUnparsable(ts))
      case Some(instant) =>
        match FindIdToken(line)
        case None => Err(IdNotFound(line))
        case Some((i, e)) =>
          IdTokenChars(line, i, e);
          Ok(Entry(kind, line, ts, line[i..e], instant))
  }

  /** The longest timestamp prefix is unique. */
  lemma TimestampOfIsUnique(line: string, ts1: string, ts2: string)
    requires IsTimestampOf(line, ts1) && IsTimestampOf(line, ts2)
    ensures ts1 == ts2
  {
    assert |ts1| == |ts2|;
  }

  /** Construction succeeds exactly when both patterns match and the timestamp parses. */
  lemma MakeSucceedsIff(line: string, kind: LogType, parse: DateParser)
    ensures Make(line, kind, parse).Ok? <==>
              (exists ts :: IsTimestampOf(line, ts) && parse(CollapseDoubleSpaces(ts)).Some?) && !NoIdToken(line)
  {
    if exists ts :: IsTimestampOf(line, ts) && parse(CollapseDoubleSpaces(ts)).Some? {
      var ts :| IsTimestampOf(line, ts) && parse(CollapseDoubleSpaces(ts)).Some?;
      var k := TimestampPrefix(line).value;
      TimestampOfIsUnique(line, ts, line[..k]);
    }
  }

  // ---------------------------------------------------------------------
  // `equals` and `hashCode`: on the full line only
  // ---------------------------------------------------------------------

  /** `LogEntry.equals`: two entries are equal when their lines are, whatever their categories. */
  predicate Equal(a: Entry, b: Entry) {
    a.fullLine == b.fullLine
  }

  const TwoTo32: int := 0x1_0000_0000

  /** Reduces an integer to Java's 32-bit signed range, wrapping around. */
  function WrapInt(x: int): (r: int)
    ensures -0x8000_0000 <= r < 0x8000_0000
    ensures (r - x) % TwoTo32 == 0
  {
    ((x + 0x8000_0000) % TwoTo32) - 0x8000_0000
  }

  /** 31 to the power n. */
  function Pow31(n: nat): nat {
    if n == 0 then 1 else 31 * Pow31(n - 1)
  }

  /**
   * The value `String.hashCode` is documented to have,
   * s[0]·31^(n-1) + s[1]·31^(n-2) + … + s[n-1], before any wrap-around.
   */
  function Poly(s: string): int {
    if |s| == 0 then 0 else s[0] as int * Pow31(|s| - 1) + Poly(s[1..])
  }

  /** The documented sum can be taken from the last character back: h = 31 * h + c. */
  lemma {:induction false} PolyHorner(s: string)
    requires |s| > 0
    ensures Poly(s) == 31 * Poly(s[..|s| - 1]) + s[|s| - 1] as int
  {
    var n := |s|;
    if n == 1 {
      assert s[..0] == [];
    } else {
      var t := s[1..];
      var init := s[..n - 1];
      PolyHorner(t);
      assert t[..|t| - 1] == init[1..];
      assert t[|t| - 1] == s[n - 1];
      var a := s[0] as int;
      var q := Pow31(n - 2);
      assert a * Pow31(n - 1) == 31 * (a * q) by {
        assert Pow31(n - 1) == 31 * q;
      }
      assert Poly(init) == a * q + Poly(init[1..]);
    }
  }

  /** Two congruences modulo 2^32, scaled by 31 and shifted by the same c, stay congruent. */
  lemma CongruentStep(h: int, p: int, c: int)
    requires (h - p) % TwoTo32 == 0
    ensures ((31 * h + c) - (31 * p + c)) % TwoTo32 == 0
  {
    var q := (h - p) / TwoTo32;
    assert h - p == TwoTo32 * q;
    assert (31 * h + c) - (31 * p + c) == TwoTo32 * (31 * q);
  }

  /**
   * `String.hashCode`: `h = 31 * h + c` over the characters, in 32-bit
   * arithmetic; the result is the documented sum wrapped to a Java `int`.
   */
  function StringHash(s: string): (h: int)
    ensures -0x8000_0000 <= h < 0x8000_0000
    ensures (h - Poly(s)) % TwoTo32 == 0
  {
    if |s| == 0 then 0
    else
      var init := s[..|s| - 1];
      var c := s[|s| - 1] as int;
      var prev := StringHash(init);
      PolyHorner(s);
      CongruentStep(prev, Poly(init), c);
      var h := WrapInt(31 * prev + c);
      SumOfMultiples(h - (31 * prev + c), (31 * prev + c) - Poly(s));
      h
  }

  /** A sum of two multiples of 2^32 is one. */
  lemma SumOfMultiples(a: int, b: int)
    requires a % TwoTo32 == 0 && b % TwoTo32 == 0
    ensures (a + b) % TwoTo32 == 0
  {
    var qa := a / TwoTo32;
    var qb := b / TwoTo32;
    assert a + b == TwoTo32 * (qa + qb);
  }

  /** The range and the congruence pin a wrapped value down: it is exactly `WrapInt(x)`. */
  lemma WrapIntUnique(x: int, r: int)
    requires -0x8000_0000 <= r < 0x8000_0000
    requires (r - x) % TwoTo32 == 0
    ensures r == WrapInt(x)
  {
    var w := WrapInt(x);
    var qr := (r - x) / TwoTo32;
    var qw := (w - x) / TwoTo32;
    assert r - x == TwoTo32 * qr && w - x == TwoTo32 * qw;
    assert r - w == TwoTo32 * (qr - qw);
    assert -TwoTo32 < r - w < TwoTo32;
  }

  /** The line hash is the documented sum wrapped to a Java `int`. */
  lemma StringHashIsWrappedSum(s: string)
    ensures StringHash(s) == WrapInt(Poly(s))
  {
    WrapIntUnique(Poly(s), StringHash(s));
  }

  /**
   * `LogEntry.hashCode`: `Objects.hash(fullLine)`, that is
   * `31 * 1 + fullLine.hashCode()`, again wrapped to a Java `int`.
   */
  function HashCode(e: Entry): (h: int)
    ensures -0x8000_0000 <= h < 0x8000_0000
    ensures (h - (31 + Poly(e.fullLine))) % TwoTo32 == 0
  {
    var line := StringHash(e.fullLine);
    var h := WrapInt(31 + line);
    SumOfMultiples(h - (31 + line), line - Poly(e.fullLine));
    h
  }

  /** Equal entries have equal hash codes, and equality ignores the category. */
  lemma EqualEntriesHashAlike(a: Entry, b: Entry)
    requires Equal(a, b)
    ensures HashCode(a) == HashCode(b)
    ensures Equal(a.(kind := NewPatient), b.(kind := PatientDischarged))
  {
  }

  /** The hash of a short line, worked out: 31 + ('a' * 31 + 'b'). */
  lemma HashCodeExample()
    ensures HashCode(Entry(NewPatient, "ab", "", "", 0)) == 31 + 97 * 31 + 98
  {
    assert "ab"[..1] == "a";
    assert "a"[..0] == "";
  }
}

=== FILE: log_type.dfy ===
/**
 * The event categories a log line can carry (`LogType`): an enum of two
 * values, each holding the label text that `toString` returns and that
 * line classification searches for.
 */
module LogTypes {
  import opened Wrappers

  datatype LogType = NewPatient | PatientDischarged {

    /** The label fixed at construction; `toString` returns it. */
    function Label(): string {
      match this
      case NewPatient => "new patient"
      case PatientDischarged => "patient discharged"
    }
  }

  /** `LogType.values()`: every category, in declaration order. */
  const Values: seq<LogType> := [NewPatient, PatientDischarged]

  /**
   * The category whose label is exactly `s`, if there is one. Java's enum
   * has no such lookup (`valueOf` takes the constant's name); this inverse
   * of `Label` serves to state that the two labels are distinct.
   */
  function FromLabel(s: string): (r: Option<LogType>)
    ensures r.Some? ==> r.value.Label() == s
    ensures r.None? ==> forall t: LogType :: t.Label() != s
  {
    if s == NewPatient.Label() then Some(NewPatient)
    else if s == PatientDischarged.Label() then Some(PatientDischarged)
    else None
  }

  /** Labels tell the categories apart: a label determines its category. */
  lemma LabelIdentifiesType(t: LogType)
    ensures FromLabel(t.Label()) == Some(t)
  {
  }

  /** `values()` lists each category exactly once, admissions first. */
  lemma ValuesListsEachTypeOnce()
    ensures |Values| == 2
    ensures Values[0] == NewPatient && Values[1] == PatientDischarged
    ensures forall t: LogType :: t in Values
  {
    forall t: LogType
      ensures t in Values
    {
      if t.NewPatient? {
        assert Values[0] == t;
      } else {
        assert Values[1] == t;
      }
    }
  }
}

=== FILE: pairing.dfy ===
/**
 * The pairing engine (`Utils.extractPairs`): one id's entries are worked
 * through round by round. Each round takes the first entry of the primary
 * category (the discharge), matches it with the first secondary entry (the
 * admission) strictly earlier than it, drops every such earlier admission
 * and the discharge from the working group, and goes on with what is left.
 * When no discharge is left, one last pair holds the first remaining
 * admission, and any further admissions are dropped.
 *
 * List removal uses `LogEntry.equals`, which compares lines only, so the
 * removal functions here compare `fullLine`, as `Equal` does.
 */
module Pairing {
  import opened Wrappers
  import opened LogTypes
  import opened LogEntries
  import opened SeqFacts

  /**
   * The source's `LogEntry[2]`: slot 0 (`start`) holds the secondary entry,
   * slot 1 (`end`) the primary entry; `None` is `null`.
   */
  datatype Pair = Pair(start: Option<Entry>, end: Option<Entry>)

  /** At least one side is present. */
  predicate Filled(p: Pair) {
    p.start.Some? || p.end.Some?
  }

  /** When both sides are present, the start is strictly earlier than the end. */
  predicate Ordered(p: Pair) {
    p.start.Some? && p.end.Some? ==> p.start.value.instant < p.end.value.instant
  }

  /** Each present side comes from g and has the category its slot is for. */
  ghost predicate DrawnFrom(p: Pair, g: seq<Entry>, primary: LogType, secondary: LogType) {
    && (p.start.Some? ==> p.start.value in g && p.start.value.kind == secondary)
    && (p.end.Some? ==> p.end.value in g && p.end.value.kind == primary)
  }

  /** No two entries of g share a line, so `equals` tells them apart. */
  ghost predicate DistinctLines(g: seq<Entry>) {
    forall i, j :: 0 <= i < j < |g| ==> g[i].fullLine != g[j].fullLine
  }

  // ---------------------------------------------------------------------
  // The stream and list operations the engine uses
  // ---------------------------------------------------------------------

  /** Index of the first entry of category t, in list order; |g| when there is none. */
  function FirstOfKind(g: seq<Entry>, t: LogType): (i: nat)
    ensures i <= |g|
    ensures i < |g| ==> g[i].kind == t
    ensures forall j :: 0 <= j < i ==> g[j].kind != t
  {
    if |g| == 0 then 0
    else if g[0].kind == t then 0
    else 1 + FirstOfKind(g[1..], t)
  }

  /** `stream().filter(kind == t).findFirst().orElse(null)`. */
  function FindFirst(g: seq<Entry>, t: LogType): (r: Option<Entry>)
    ensures r.None? <==> forall e :: e in g ==> e.kind != t
    ensures forall k :: 0 <= k < |g| && g[k].kind == t && (forall j :: 0 <= j < k ==> g[j].kind != t) ==>
              r == Some(g[k])
  {
    var i := FirstOfKind(g, t);
    if i < |g| then Some(g[i]) else None
  }

  /** The entries of category t, in list order. */
  function OfKind(g: seq<Entry>, t: LogType): (r: seq<Entry>)
    ensures forall e :: e in r <==> e in g && e.kind == t
    ensures |r| <= |g|
  {
    if |g| == 0 then []
    else (if g[0].kind == t then [g[0]] else []) + OfKind(g[1..], t)
  }

  /** An entry the source puts in its `secondary` list against a discharge at `bound`. */
  predicate EarlierOfKind(e: Entry, t: LogType, bound: int) {
    e.kind == t && e.instant < bound
  }

  /** The `secondary` list: entries of category t strictly before `bound`, in list order. */
  function Earlier(g: seq<Entry>, t: LogType, bound: int): (r: seq<Entry>)
    ensures forall e :: e in r <==> e in g && EarlierOfKind(e, t, bound)
    ensures |r| <= |g|
  {
    if |g| == 0 then []
    else (if EarlierOfKind(g[0], t, bound) then [g[0]] else []) + Earlier(g[1..], t, bound)
  }

  /** No entry of xs has this line. */
  predicate LineAbsent(xs: seq<Entry>, line: string) {
    forall x :: x in xs ==> x.fullLine != line
  }

  /** `removeAll(xs)`: drops every entry equal (same line) to some entry of xs. */
  function RemoveAll(g: seq<Entry>, xs: seq<Entry>): (r: seq<Entry>)
    ensures forall e :: e in r <==> e in g && LineAbsent(xs, e.fullLine)
    ensures |r| <= |g|
    ensures |xs| == 0 ==> r == g
    ensures forall x :: x in xs && x in g ==> |r| < |g|
  {
    if |g| == 0 then []
    else
      var rest := RemoveAll(g[1..], xs);
      assert forall x :: x in xs && x in g && x != g[0] ==> x in g[1..];
      if LineAbsent(xs, g[0].fullLine) then [g[0]] + rest else rest
  }

  /** Index of the first entry with this line; |g| when there is none. */
  function FirstWithLine(g: seq<Entry>, line: string): (i: nat)
    ensures i <= |g|
    ensures i < |g| ==> g[i].fullLine == line
    ensures forall j :: 0 <= j < i ==> g[j].fullLine != line
    ensures forall e :: e in g && e.fullLine == line ==> i < |g|
  {
    if |g| == 0 then 0
    else if g[0].fullLine == line then 0
    else 1 + FirstWithLine(g[1..], line)
  }

  /** `remove(x)`: drops the first entry equal (same line) to x; no change when there is none. */
  function RemoveFirst(g: seq<Entry>, x: Entry): (r: seq<Entry>)
    ensures forall e :: e in r ==> e in g
    ensures |r| <= |g|
    ensures forall e :: e in g && e.fullLine == x.fullLine ==> |r| == |g| - 1
  {
    if |g| == 0 then []
    else if Equal(g[0], x) then g[1..]
    else [g[0]] + RemoveFirst(g[1..], x)
  }

  /** `remove(x)` cuts out exactly the first entry with x's line, and leaves g alone when there is none. */
  lemma {:induction false} RemoveFirstCutsFirstMatch(g: seq<Entry>, x: Entry)
    ensures var i := FirstWithLine(g, x.fullLine);
            RemoveFirst(g, x) == if i < |g| then g[..i] + g[i + 1..] else g
  {
    if |g| > 0 && g[0].fullLine != x.fullLine {
      var t := g[1..];
      var i := FirstWithLine(t, x.fullLine);
      assert FirstWithLine(g, x.fullLine) == i + 1;
      assert RemoveFirst(g, x) == [g[0]] + RemoveFirst(t, x);
      RemoveFirstCutsFirstMatch(t, x);
      if i < |t| {
        var before, after := t[..i], t[i + 1..];
        assert [g[0]] + before == g[..i + 1];
        assert after == g[i + 2..];
        assert [g[0]] + (before + after) == ([g[0]] + before) + after;
      } else {
        HeadTail(g);
      }
    }
  }

  /** The working group for the next round after discharge d was matched. */
  function NextGroup(g: seq<Entry>, d: Entry, secondary: LogType): (r: seq<Entry>)
    requires d in g
    ensures |r| < |g|
    ensures forall e :: e in r ==> e in g && !EarlierOfKind(e, secondary, d.instant)
  {
    var earlier := Earlier(g, secondary, d.instant);
    var kept := RemoveAll(g, earlier);
    assert |earlier| > 0 ==> earlier[0] in earlier;
    RemoveFirst(kept, d)
  }

  // ---------------------------------------------------------------------
  // The engine
  // ---------------------------------------------------------------------

  /**
   * `extractPairs(group, primary, secondary)`. Every round removes at least
   * the matched discharge, so the group shrinks and the recursion ends.
   */
  function ExtractPairs(g: seq<Entry>, primary: LogType, secondary: LogType): (r: seq<Pair>)
    ensures |r| == 0 <==> |g| == 0
    ensures |r| <= |g|
    ensures forall p :: p in r ==> DrawnFrom(p, g, primary, secondary)
    ensures forall p :: p in r ==> Ordered(p)
    decreases |g|
  {
    if |g| == 0 then []
    else
      var i := FirstOfKind(g, primary);
      if i == |g| then
        [Pair(FindFirst(g, secondary), None)]
      else
        var d := g[i];
        var earlier := Earlier(g, secondary, d.instant);
        var start := if |earlier| > 0 then Some(earlier[0]) else None;
        var first := Pair(start, Some(d));
        assert DrawnFrom(first, g, primary, secondary) && Ordered(first) by {
          assert |earlier| > 0 ==> earlier[0] in earlier;
        }
        var rest := NextGroup(g, d, secondary);
        var tail := ExtractPairs(rest, primary, secondary);
        assert forall p :: p in tail ==> DrawnFrom(p, g, primary, secondary) by {
          forall p | p in tail
            ensures DrawnFrom(p, g, primary, secondary)
          {
            assert DrawnFrom(p, rest, primary, secondary);
          }
        }
        [first] + tail
  }

  // ---------------------------------------------------------------------
  // What one round does
  // ---------------------------------------------------------------------

  /** g[k] is the first entry of category t in list order. */
  ghost predicate FirstOfKindAt(g: seq<Entry>, k: int, t: LogType) {
    0 <= k < |g| && g[k].kind == t && forall j :: 0 <= j < k ==> g[j].kind != t
  }

  /** g[k] is the first entry of category t strictly before `bound`, in list order. */
  ghost predicate FirstEarlierAt(g: seq<Entry>, k: int, t: LogType, bound: int) {
    0 <= k < |g| && EarlierOfKind(g[k], t, bound) && forall j :: 0 <= j < k ==> !EarlierOfKind(g[j], t, bound)
  }

  /** The head of the `secondary` list is the first qualifying entry of the group. */
  lemma {:induction false} EarlierHead(g: seq<Entry>, t: LogType, bound: int, k: int)
    requires FirstEarlierAt(g, k, t, bound)
    ensures |Earlier(g, t, bound)| > 0 && Earlier(g, t, bound)[0] == g[k]
  {
    if k > 0 {
      assert !EarlierOfKind(g[0], t, bound);
      assert FirstEarlierAt(g[1..], k - 1, t, bound);
      EarlierHead(g[1..], t, bound, k - 1);
    }
  }

  /**
   * A round with no discharge left emits exactly one pair: no discharge,
   * and the first admission in list order, or none when there is none.
   */
  lemma NoDischargeRound(g: seq<Entry>, primary: LogType, secondary: LogType)
    requires |g| > 0
    requires forall e :: e in g ==> e.kind != primary
    ensures var r := ExtractPairs(g, primary, secondary);
            && |r| == 1
            && r[0].end.None?
            && (r[0].start.None? <==> forall e :: e in g ==> e.kind != secondary)
            && forall k :: FirstOfKindAt(g, k, secondary) ==> r[0].start == Some(g[k])
  {
  }

  /**
   * A round with a discharge pairs the first discharge in list order with
   * the first admission in list order strictly before it, or with none,
   * and the rest of the result comes from the next working group.
   */
  lemma DischargeRound(g: seq<Entry>, primary: LogType, secondary: LogType, i: int)
    requires FirstOfKindAt(g, i, primary)
    ensures var r := ExtractPairs(g, primary, secondary);
            && |r| > 0
            && r[0].end == Some(g[i])
            && (r[0].start.None? <==> forall e :: e in g ==> !EarlierOfKind(e, secondary, g[i].instant))
            && (forall k :: FirstEarlierAt(g, k, secondary, g[i].instant) ==> r[0].start == Some(g[k]))
            && r[1..] == ExtractPairs(NextGroup(g, g[i], secondary), primary, secondary)
  {
    var r := ExtractPairs(g, primary, secondary);
    var earlier := Earlier(g, secondary, g[i].instant);
    assert FirstOfKind(g, primary) == i;
    assert |earlier| > 0 ==> earlier[0] in earlier;
    forall k | FirstEarlierAt(g, k, secondary, g[i].instant)
      ensures r[0].start == Some(g[k])
    {
      EarlierHead(g, secondary, g[i].instant, k);
    }
  }

  /** With distinct lines, two entries of g with the same line are the same entry. */
  lemma SameLineSameEntry(g: seq<Entry>, a: Entry, b: Entry)
    requires DistinctLines(g) && a in g && b in g && a.fullLine == b.fullLine
    ensures a == b
  {
    var i :| 0 <= i < |g| && g[i] == a;
    var j :| 0 <= j < |g| && g[j] == b;
  }

  /** Prepending an entry whose line is new keeps the lines distinct. */
  lemma DistinctCons(x: Entry, g: seq<Entry>)
    requires DistinctLines(g) && LineAbsent(g, x.fullLine)
    ensures DistinctLines([x] + g)
  {
    var r := [x] + g;
    forall i, j | 0 <= i < j < |r|
      ensures r[i].fullLine != r[j].fullLine
    {
      if i == 0 {
        assert r[j] == g[j - 1] && g[j - 1] in g;
      } else {
        assert r[i] == g[i - 1] && r[j] == g[j - 1];
      }
    }
  }

  lemma {:induction false} RemoveAllKeepsDistinct(g: seq<Entry>, xs: seq<Entry>)
    requires DistinctLines(g)
    ensures DistinctLines(RemoveAll(g, xs))
  {
    if |g| > 0 {
      assert DistinctLines(g[1..]);
      RemoveAllKeepsDistinct(g[1..], xs);
      var rest := RemoveAll(g[1..], xs);
      if LineAbsent(xs, g[0].fullLine) {
        forall e | e in rest
          ensures e.fullLine != g[0].fullLine
        {
          var j :| 0 <= j < |g[1..]| && g[1..][j] == e;
          assert g[j + 1] == e;
        }
        DistinctCons(g[0], rest);
      }
    }
  }

  lemma {:induction false} RemoveFirstKeepsDistinct(g: seq<Entry>, x: Entry)
    requires DistinctLines(g)
    ensures DistinctLines(RemoveFirst(g, x))
  {
    if |g| > 0 {
      assert DistinctLines(g[1..]);
      if g[0].fullLine != x.fullLine {
        RemoveFirstKeepsDistinct(g[1..], x);
        var rest := RemoveFirst(g[1..], x);
        forall e | e in rest
          ensures e.fullLine != g[0].fullLine
        {
          var j :| 0 <= j < |g[1..]| && g[1..][j] == e;
          assert g[j + 1] == e;
        }
        DistinctCons(g[0], rest);
      }
    }
  }

  /** With distinct lines, `remove(d)` drops d itself and nothing else. */
  lemma {:induction false} RemoveFirstContents(g: seq<Entry>, d: Entry)
    requires DistinctLines(g) && d in g
    ensures forall e :: e in RemoveFirst(g, d) <==> e in g && e != d
  {
    assert g == [g[0]] + g[1..];
    if g[0].fullLine == d.fullLine {
      SameLineSameEntry(g, g[0], d);
    } else {
      assert DistinctLines(g[1..]);
      RemoveFirstContents(g[1..], d);
    }
  }

  /** With distinct lines, `removeAll` of the earlier admissions drops exactly those. */
  lemma RemoveEarlierContents(g: seq<Entry>, secondary: LogType, bound: int)
    requires DistinctLines(g)
    ensures forall e :: e in RemoveAll(g, Earlier(g, secondary, bound)) <==>
              e in g && !EarlierOfKind(e, secondary, bound)
  {
    var earlier := Earlier(g, secondary, bound);
    forall e | e in g && !EarlierOfKind(e, secondary, bound)
      ensures LineAbsent(earlier, e.fullLine)
    {
      forall x | x in earlier
        ensures x.fullLine != e.fullLine
      {
        if x.fullLine == e.fullLine {
          SameLineSameEntry(g, x, e);
        }
      }
    }
  }

  /**
   * With distinct lines, the next working group is the old one less the
   * matched discharge and less every admission strictly before it; an
   * admission at the same instant or later stays for later rounds.
   */
  lemma NextGroupContents(g: seq<Entry>, d: Entry, secondary: LogType)
    requires d in g && DistinctLines(g)
    ensures forall e :: e in NextGroup(g, d, secondary) <==>
              e in g && e != d && !EarlierOfKind(e, secondary, d.instant)
    ensures DistinctLines(NextGroup(g, d, secondary))
  {
    var earlier := Earlier(g, secondary, d.instant);
    var kept := RemoveAll(g, earlier);
    RemoveAllKeepsDistinct(g, earlier);
    RemoveFirstKeepsDistinct(kept, d);
    RemoveEarlierContents(g, secondary, d.instant);
    RemoveFirstContents(kept, d);
  }

  // ---------------------------------------------------------------------
  // Properties of the whole result
  // ---------------------------------------------------------------------

  /** When the two categories differ and every entry has one of them, no pair is empty. */
  lemma {:induction false} ExtractPairsFilled(g: seq<Entry>, primary: LogType, secondary: LogType)
    requires primary != secondary
    ensures forall p :: p in ExtractPairs(g, primary, secondary) ==> Filled(p)
    decreases |g|
  {
    if |g| > 0 {
      var i := FirstOfKind(g, primary);
      if i == |g| {
        assert g[0].kind == secondary && g[0] in g;
      } else {
        var rest := NextGroup(g, g[i], secondary);
        ExtractPairsFilled(rest, primary, secondary);
      }
    }
  }

  /** Every pair but the last has a discharge. */
  predicate OpenOnlyAtEnd(r: seq<Pair>) {
    forall k :: 0 <= k < |r| - 1 ==> r[k].end.Some?
  }

  lemma OpenOnlyAtEndCons(p: Pair, tail: seq<Pair>)
    requires p.end.Some? && OpenOnlyAtEnd(tail)
    ensures OpenOnlyAtEnd([p] + tail)
  {
    var r := [p] + tail;
    forall k | 0 < k < |r| - 1
      ensures r[k].end.Some?
    {
      assert r[k] == tail[k - 1];
    }
  }

  /**
   * Only the last pair can lack a discharge: the no-discharge round emits a
   * single pair and ends the recursion, so admissions beyond its first are
   * dropped.
   */
  lemma {:induction false} OnlyLastPairOpen(g: seq<Entry>, primary: LogType, secondary: LogType)
    ensures OpenOnlyAtEnd(ExtractPairs(g, primary, secondary))
    decreases |g|
  {
    if |g| > 0 {
      var i := FirstOfKind(g, primary);
      if i < |g| {
        var rest := NextGroup(g, g[i], secondary);
        OnlyLastPairOpen(rest, primary, secondary);
        var r := ExtractPairs(g, primary, secondary);
        assert r == [r[0]] + ExtractPairs(rest, primary, secondary);
        OpenOnlyAtEndCons(r[0], ExtractPairs(rest, primary, secondary));
      }
    }
  }

  /** The discharges of a pair list, in order. */
  function Discharges(r: seq<Pair>): seq<Entry> {
    if |r| == 0 then []
    else (if r[0].end.Some? then [r[0].end.value] else []) + Discharges(r[1..])
  }

  /** The head of `OfKind` is the first entry of that category. */
  lemma {:induction false} OfKindHead(g: seq<Entry>, t: LogType)
    ensures FirstOfKind(g, t) < |g| ==> |OfKind(g, t)| > 0 && OfKind(g, t)[0] == g[FirstOfKind(g, t)]
    ensures FirstOfKind(g, t) == |g| ==> OfKind(g, t) == []
  {
    if |g| > 0 && g[0].kind != t {
      OfKindHead(g[1..], t);
    }
  }

  /** Removing entries whose lines no entry of category t has leaves that category untouched. */
  lemma {:induction false} RemoveAllKeepsKind(g: seq<Entry>, xs: seq<Entry>, t: LogType)
    requires forall e :: e in g && e.kind == t ==> LineAbsent(xs, e.fullLine)
    ensures OfKind(RemoveAll(g, xs), t) == OfKind(g, t)
  {
    if |g| > 0 {
      assert g[0] in g;
      RemoveAllKeepsKind(g[1..], xs, t);
      if LineAbsent(xs, g[0].fullLine) {
        assert ([g[0]] + RemoveAll(g[1..], xs))[1..] == RemoveAll(g[1..], xs);
      }
    }
  }

  /** Removing the first entry of category t drops the head of that category's list. */
  lemma {:induction false} RemoveFirstOfKind(g: seq<Entry>, d: Entry, t: LogType)
    requires DistinctLines(g)
    requires |OfKind(g, t)| > 0 && OfKind(g, t)[0] == d
    ensures OfKind(RemoveFirst(g, d), t) == OfKind(g, t)[1..]
  {
    var ks := OfKind(g, t);
    var rest := OfKind(g[1..], t);
    assert d in g && d.kind == t by {
      assert d in ks;
    }
    assert ks == (if g[0].kind == t then [g[0]] else []) + rest by {
      HeadTail(g);
      OfKindCons(g[0], g[1..], t);
    }
    RemoveFirstStep(g, d);
    if g[0].fullLine == d.fullLine {
      assert g[0] == d by {
        SameLineSameEntry(g, g[0], d);
      }
      assert ks[1..] == rest;
    } else {
      assert g[0].kind != t by {
        assert ([g[0]] + rest)[0] == g[0];
      }
      assert ks == rest by {
        assert [] + rest == rest;
      }
      var tail := RemoveFirst(g[1..], d);
      OfKindCons(g[0], tail, t);
      assert OfKind(tail, t) == rest[1..] by {
        assert DistinctLines(g[1..]);
        RemoveFirstOfKind(g[1..], d, t);
      }
    }
  }

  /** `remove(d)` either drops the head, when it is d's line, or keeps it and works on the tail. */
  lemma RemoveFirstStep(g: seq<Entry>, d: Entry)
    requires |g| > 0
    ensures g[0].fullLine == d.fullLine ==> RemoveFirst(g, d) == g[1..]
    ensures g[0].fullLine != d.fullLine ==> RemoveFirst(g, d) == [g[0]] + RemoveFirst(g[1..], d)
  {
  }

  /** The category list of a sequence with a head in front. */
  lemma OfKindCons(x: Entry, s: seq<Entry>, t: LogType)
    ensures OfKind([x] + s, t) == (if x.kind == t then [x] else []) + OfKind(s, t)
  {
    assert ([x] + s)[1..] == s;
  }

  /**
   * With distinct lines, every discharge of the group ends exactly one
   * pair, and the pairs take the discharges in list order.
   */
  lemma {:induction false} EveryDischargePairedOnce(g: seq<Entry>, primary: LogType, secondary: LogType)
    requires primary != secondary && DistinctLines(g)
    ensures Discharges(ExtractPairs(g, primary, secondary)) == OfKind(g, primary)
    decreases |g|
  {
    OfKindHead(g, primary);
    if |g| > 0 {
      var i := FirstOfKind(g, primary);
      if i < |g| {
        var d := g[i];
        var earlier := Earlier(g, secondary, d.instant);
        var kept := RemoveAll(g, earlier);
        var rest := NextGroup(g, d, secondary);
        assert OfKind(kept, primary) == OfKind(g, primary) by {
          forall e | e in g && e.kind == primary
            ensures LineAbsent(earlier, e.fullLine)
          {
            forall x | x in earlier
              ensures x.fullLine != e.fullLine
            {
              if x.fullLine == e.fullLine {
                SameLineSameEntry(g, x, e);
              }
            }
          }
          RemoveAllKeepsKind(g, earlier, primary);
        }
        assert OfKind(rest, primary) == OfKind(g, primary)[1..] by {
          RemoveAllKeepsDistinct(g, earlier);
          RemoveFirstOfKind(kept, d, primary);
        }
        assert Discharges(ExtractPairs(rest, primary, secondary)) == OfKind(rest, primary) by {
          NextGroupContents(g, d, secondary);
          EveryDischargePairedOnce(rest, primary, secondary);
        }
        var r := ExtractPairs(g, primary, secondary);
        var tail := ExtractPairs(rest, primary, secondary);
        assert Discharges(r) == [d] + Discharges(tail) by {
          assert r[0].end == Some(d) && r[1..] == tail;
        }
        var ks := OfKind(g, primary);
        assert ks == [d] + ks[1..] by {
          HeadTail(ks);
        }
      }
    }
  }

  // ---------------------------------------------------------------------
  // Worked scenarios
  // ---------------------------------------------------------------------

  /**
   * Admissions at 1 and 2 before a discharge at 3: the first admission in
   * list order is matched and the other is consumed without a pair.
   */
  lemma SupersededAdmissionScenario()
    ensures var a1 := Entry(NewPatient, "a1", "", "1-AB-x", 1);
            var a2 := Entry(NewPatient, "a2", "", "1-AB-x", 2);
            var d := Entry(PatientDischarged, "d", "", "1-AB-x", 3);
            ExtractPairs([a1, a2, d], PatientDischarged, NewPatient) == [Pair(Some(a1), Some(d))]
  {
    var a1 := Entry(NewPatient, "a1", "", "1-AB-x", 1);
    var a2 := Entry(NewPatient, "a2", "", "1-AB-x", 2);
    var d := Entry(PatientDischarged, "d", "", "1-AB-x", 3);
    var g := [a1, a2, d];
    assert g[1..] == [a2, d] && [a2, d][1..] == [d] && [d][1..] == [];
    assert FirstOfKind([a2, d], PatientDischarged) == 1;
    assert FirstOfKind(g, PatientDischarged) == 2;
    assert Earlier([d], NewPatient, 3) == [];
    assert Earlier([a2, d], NewPatient, 3) == [a2];
    var earlier := Earlier(g, NewPatient, 3);
    assert earlier == [a1, a2];
    assert RemoveAll(g, earlier) == [d];
    assert NextGroup(g, d, NewPatient) == [];
  }

  /** With no discharge, only the first of two admissions is reported. */
  lemma TrailingAdmissionsDroppedScenario()
    ensures var a1 := Entry(NewPatient, "a1", "", "1-AB-x", 1);
            var a2 := Entry(NewPatient, "a2", "", "1-AB-x", 2);
            ExtractPairs([a1, a2], PatientDischarged, NewPatient) == [Pair(Some(a1), None)]
  {
    var a1 := Entry(NewPatient, "a1", "", "1-AB-x", 1);
    var a2 := Entry(NewPatient, "a2", "", "1-AB-x", 2);
    assert FirstOfKind([a1, a2], PatientDischarged) == 2;
  }

  /** An admission later than the discharge stays and is reported on its own afterwards. */
  lemma LaterAdmissionStaysScenario()
    ensures var d := Entry(PatientDischarged, "d", "", "1-AB-x", 1);
            var a := Entry(NewPatient, "a", "", "1-AB-x", 2);
            ExtractPairs([d, a], PatientDischarged, NewPatient) == [Pair(None, Some(d)), Pair(Some(a), None)]
  {
    var d := Entry(PatientDischarged, "d", "", "1-AB-x", 1);
    var a := Entry(NewPatient, "a", "", "1-AB-x", 2);
    assert FirstOfKind([d, a], PatientDischarged) == 0;
    assert Earlier([d, a], NewPatient, 1) == [];
    assert RemoveAll([d, a], []) == [d, a];
    assert RemoveFirst([d, a], d) == [a];
    assert NextGroup([d, a], d, NewPatient) == [a];
    assert ExtractPairs([a], PatientDischarged, NewPatient) == [Pair(Some(a), None)] by {
      assert FirstOfKind([a], PatientDischarged) == 1;
      assert FindFirst([a], NewPatient) == Some(a);
    }
  }

  /**
   * A line holding both labels gives two entries with one line. `remove`
   * takes out the admission (it comes first and is "equal"), so the
   * discharge is paired twice and the admission never appears.
   */
  lemma SharedLineScenario()
    ensures var a := Entry(NewPatient, "L", "", "1-AB-x", 5);
            var d := Entry(PatientDischarged, "L", "", "1-AB-x", 5);
            ExtractPairs([a, d], PatientDischarged, NewPatient) == [Pair(None, Some(d)), Pair(None, Some(d))]
  {
    var a := Entry(NewPatient, "L", "", "1-AB-x", 5);
    var d := Entry(PatientDischarged, "L", "", "1-AB-x", 5);
    assert FirstOfKind([a, d], PatientDischarged) == 1;
    assert Earlier([a, d], NewPatient, 5) == [];
    assert NextGroup([a, d], d, NewPatient) == [d];
    assert FirstOfKind([d], PatientDischarged) == 0;
    assert Earlier([d], NewPatient, 5) == [];
    assert NextGroup([d], d, NewPatient) == [];
  }
}

=== FILE: patterns.dfy ===
/**
 * Explicit scanners for the text patterns `LogEntry` applies to a line:
 * the timestamp prefix `^(.+[\d:]{8} \d{4})`, the id token
 * `\b\d+-\w{1,3}-\w+\b`, and the `replaceAll("  ", " ")` done before the
 * timestamp is parsed. Digit and word classes are the ASCII ones, as in
 * `java.util.regex` without UNICODE_CHARACTER_CLASS.
 */
module Patterns {
  import opened Wrappers

  predicate IsDigit(c: char) {
    '0' <= c <= '9'
  }

  /** `\w`: ASCII letters, digits and the underscore. */
  predicate IsWordChar(c: char) {
    'a' <= c <= 'z' || 'A' <= c <= 'Z' || IsDigit(c) || c == '_'
  }

  /** The characters `.` refuses to match while DOTALL is off. */
  predicate IsLineTerminator(c: char) {
    c == '\n' || c == '\r' || c == '\U{85}' || c == '\U{2028}' || c == '\U{2029}'
  }

  // ---------------------------------------------------------------------
  // Timestamp prefix `^(.+[\d:]{8} \d{4})`
  // ---------------------------------------------------------------------

  /** Length of the fixed tail `[\d:]{8} \d{4}` of the timestamp pattern. */
  const TailLength: nat := 13

  /**
   * `s[..k]` matches `^.+[\d:]{8} \d{4}`: one or more characters other
   * than line terminators, eight digits or colons, a space, four digits.
   */
  predicate TimestampMatch(s: string, k: int) {
    && TailLength < k <= |s|
    && (forall x :: 0 <= x < k - TailLength ==> !IsLineTerminator(s[x]))
    && (forall x :: k - TailLength <= x < k - 5 ==> IsDigit(s[x]) || s[x] == ':')
    && s[k - 5] == ' '
    && (forall x :: k - 4 <= x < k ==> IsDigit(s[x]))
  }

  /**
   * The longest match no longer than `k`. Greedy `.+` backtracks from the
   * longest candidate down, so the first candidate that fits wins.
   */
  function LongestTimestampUpTo(s: string, k: nat): (r: Option<nat>)
    requires k <= |s|
    ensures r.Some? ==> r.value <= k && TimestampMatch(s, r.value)
    ensures r.Some? ==> forall j :: r.value < j <= k ==> !TimestampMatch(s, j)
    ensures r.None? ==> forall j :: j <= k ==> !TimestampMatch(s, j)
    decreases k
  {
    if k <= TailLength then None
    else if TimestampMatch(s, k) then Some(k)
    else LongestTimestampUpTo(s, k - 1)
  }

  /**
   * The length of what `matcher.group(1)` captures for the timestamp
   * pattern: the longest matching prefix, or `None` when `find()` fails.
   */
  function TimestampPrefix(s: string): (r: Option<nat>)
    ensures r.Some? ==> TimestampMatch(s, r.value)
    ensures r.Some? ==> forall j :: r.value < j ==> !TimestampMatch(s, j)
    ensures r.None? ==> forall j :: !TimestampMatch(s, j)
  {
    LongestTimestampUpTo(s, |s|)
  }

  /** A matched timestamp never holds a line terminator: `.` and the tail exclude them. */
  lemma TimestampHasNoTerminator(s: string, k: int)
    requires TimestampMatch(s, k)
    ensures forall c :: c in s[..k] ==> !IsLineTerminator(c)
  {
    forall c | c in s[..k]
      ensures !IsLineTerminator(c)
    {
      var x :| 0 <= x < k && s[..k][x] == c;
      assert s[x] == c;
    }
  }

  // ---------------------------------------------------------------------
  // Id token `\b\d+-\w{1,3}-\w+\b`
  // ---------------------------------------------------------------------

  /** `\b` at position p: exactly one of the two characters around p is a word character. */
  predicate WordBoundary(s: string, p: int)
    requires 0 <= p <= |s|
  {
    (0 < p && IsWordChar(s[p - 1])) != (p < |s| && IsWordChar(s[p]))
  }

  predicate AllDigits(s: string, lo: int, hi: int)
    requires 0 <= lo <= hi <= |s|
  {
    forall x :: lo <= x < hi ==> IsDigit(s[x])
  }

  predicate AllWordChars(s: string, lo: int, hi: int)
    requires 0 <= lo <= hi <= |s|
  {
    forall x :: lo <= x < hi ==> IsWordChar(s[x])
  }

  /** `s[i..e]` matches `\b\d+-\w{1,3}-\w+\b` with its two hyphens at `j` and `k`. */
  predicate IdTokenSplit(s: string, i: int, j: int, k: int, e: int) {
    && 0 <= i < j
    && j + 1 < k <= j + 4
    && k + 1 < e <= |s|
    && AllDigits(s, i, j)
    && s[j] == '-'
    && AllWordChars(s, j + 1, k)
    && s[k] == '-'
    && AllWordChars(s, k + 1, e)
    && WordBoundary(s, i)
    && WordBoundary(s, e)
  }

  /** `s[i..e]` is a match of the id pattern. */
  ghost predicate IdTokenAt(s: string, i: int, e: int) {
    exists j, k :: IdTokenSplit(s, i, j, k, e)
  }

  /** The match `find()` reports: it starts at `i` and no match starts earlier. */
  ghost predicate LeftmostIdAt(s: string, i: int, e: int) {
    IdTokenAt(s, i, e) && forall a, e' :: 0 <= a < i ==> !IdTokenAt(s, a, e')
  }

  ghost predicate NoIdToken(s: string) {
    forall i, e :: !IdTokenAt(s, i, e)
  }

  /** End of the run of digits that starts at `i`. */
  function DigitRunEnd(s: string, i: nat): (r: nat)
    requires i <= |s|
    ensures i <= r <= |s| && AllDigits(s, i, r)
    ensures r < |s| ==> !IsDigit(s[r])
    decreases |s| - i
  {
    if i < |s| && IsDigit(s[i]) then DigitRunEnd(s, i + 1) else i
  }

  /** End of the run of word characters that starts at `i`. */
  function WordRunEnd(s: string, i: nat): (r: nat)
    requires i <= |s|
    ensures i <= r <= |s| && AllWordChars(s, i, r)
    ensures r < |s| ==> !IsWordChar(s[r])
    decreases |s| - i
  {
    if i < |s| && IsWordChar(s[i]) then WordRunEnd(s, i + 1) else i
  }

  /**
   * The end of the id match that starts at `i`, if one does. Greedy
   * quantifiers followed by a hyphen or `\b` can only stop at the end of a
   * run, so each part is the whole run.
   */
  function IdMatchFrom(s: string, i: nat): Option<nat>
    requires i <= |s|
  {
    if i == |s| || !IsDigit(s[i]) || (0 < i && IsWordChar(s[i - 1])) then None
    else
      var j := DigitRunEnd(s, i);
      if j == |s| || s[j] != '-' then None
      else
        var k := WordRunEnd(s, j + 1);
        if k == j + 1 || j + 4 < k || k == |s| || s[k] != '-' then None
        else
          var e := WordRunEnd(s, k + 1);
          if e == k + 1 then None else Some(e)
  }

  /** The run scanner finds a match at `i` exactly when the pattern has one there. */
  lemma IdMatchFromCorrect(s: string, i: nat)
    requires i <= |s|
    ensures IdMatchFrom(s, i).Some? ==> i < IdMatchFrom(s, i).value <= |s|
    ensures IdMatchFrom(s, i).Some? ==> IdTokenAt(s, i, IdMatchFrom(s, i).value)
    ensures forall e :: IdTokenAt(s, i, e) ==> IdMatchFrom(s, i) == Some(e)
  {
    if IdMatchFrom(s, i).Some? {
      var j := DigitRunEnd(s, i);
      var k := WordRunEnd(s, j + 1);
      var e := WordRunEnd(s, k + 1);
      assert IdTokenSplit(s, i, j, k, e);
    }
    forall e | IdTokenAt(s, i, e)
      ensures IdMatchFrom(s, i) == Some(e)
    {
      var j', k' :| IdTokenSplit(s, i, j', k', e);
      assert IsDigit(s[i]);
      var j := DigitRunEnd(s, i);
      assert j == j';
      var k := WordRunEnd(s, j + 1);
      assert k == k';
      assert IsWordChar(s[e - 1]);
    }
  }

  /** The match starting at a given position is unique, so `group(1)` is determined by where `find()` starts. */
  lemma IdMatchIsUnique(s: string, i: nat, e1: int, e2: int)
    requires i <= |s|
    requires IdTokenAt(s, i, e1) && IdTokenAt(s, i, e2)
    ensures e1 == e2
  {
    IdMatchFromCorrect(s, i);
  }

  /** `find()` from position `i`: the leftmost match at or after `i`. */
  function IdSearchFrom(s: string, i: nat): (r: Option<(nat, nat)>)
    requires i <= |s|
    ensures r.Some? ==> i <= r.value.0 < r.value.1 <= |s|
    ensures r.Some? ==> IdTokenAt(s, r.value.0, r.value.1)
    ensures r.Some? ==> forall a, e :: i <= a < r.value.0 ==> !IdTokenAt(s, a, e)
    ensures r.None? ==> forall a, e :: i <= a ==> !IdTokenAt(s, a, e)
    decreases |s| - i
  {
    IdMatchFromCorrect(s, i);
    match IdMatchFrom(s, i)
    case Some(e) => Some((i, e))
    case None => if i == |s| then None else IdSearchFrom(s, i + 1)
  }

  /** Position and end of the id token `find()` reports for the whole line. */
  function FindIdToken(s: string): (r: Option<(nat, nat)>)
    ensures r.Some? ==> r.value.0 < r.value.1 <= |s| && LeftmostIdAt(s, r.value.0, r.value.1)
    ensures r.None? <==> NoIdToken(s)
  {
    IdSearchFrom(s, 0)
  }

  /** Every character of an id token is a word character or a hyphen. */
  lemma IdTokenChars(s: string, i: int, e: int)
    requires 0 <= i <= e <= |s| && IdTokenAt(s, i, e)
    ensures forall c :: c in s[i..e] ==> IsWordChar(c) || c == '-'
  {
    var j, k :| IdTokenSplit(s, i, j, k, e);
    forall c | c in s[i..e]
      ensures IsWordChar(c) || c == '-'
    {
      var x :| 0 <= x < e - i && s[i..e][x] == c;
      assert s[i + x] == c;
    }
  }

  // ---------------------------------------------------------------------
  // `replaceAll("  ", " ")`
  // ---------------------------------------------------------------------

  /** The text with every space removed. */
  function WithoutSpaces(s: string): string {
    if |s| == 0 then ""
    else (if s[0] == ' ' then "" else [s[0]]) + WithoutSpaces(s[1..])
  }

  predicate NoDoubleSpace(s: string) {
    forall x :: 0 <= x < |s| - 1 ==> !(s[x] == ' ' && s[x + 1] == ' ')
  }

  /**
   * Replaces each pair of adjacent spaces, scanning left to right without
   * overlap, by a single space. What it keeps and what it changes is stated
   * by the lemmas below.
   */
  function CollapseDoubleSpaces(s: string): (r: string)
    ensures |r| <= |s|
  {
    if |s| < 2 then s
    else if s[0] == ' ' && s[1] == ' ' then " " + CollapseDoubleSpaces(s[2..])
    else [s[0]] + CollapseDoubleSpaces(s[1..])
  }

  /** Every character other than a space survives, in order. */
  lemma {:induction false} CollapseKeepsNonSpaces(s: string)
    ensures WithoutSpaces(CollapseDoubleSpaces(s)) == WithoutSpaces(s)
  {
    if |s| >= 2 {
      if s[0] == ' ' && s[1] == ' ' {
        var rest := CollapseDoubleSpaces(s[2..]);
        CollapseKeepsNonSpaces(s[2..]);
        assert WithoutSpaces(s) == WithoutSpaces(s[1..]);
        assert s[1..][1..] == s[2..];
        assert (" " + rest)[1..] == rest;
      } else {
        var rest := CollapseDoubleSpaces(s[1..]);
        CollapseKeepsNonSpaces(s[1..]);
        assert ([s[0]] + rest)[1..] == rest;
      }
    }
  }

  /** Past a first character that does not start a double space, double spaces are those of the tail. */
  lemma NoDoubleSpaceTail(s: string)
    requires |s| >= 2 && !(s[0] == ' ' && s[1] == ' ')
    ensures NoDoubleSpace(s) <==> NoDoubleSpace(s[1..])
  {
    var t := s[1..];
    forall x | 0 <= x < |t|
      ensures t[x] == s[x + 1]
    {
    }
  }

  /**
   * A text without double spaces comes back unchanged, and a text with one
   * comes back strictly shorter: some pair was collapsed.
   */
  lemma {:induction false} CollapseChangesOnlyDoubleSpaces(s: string)
    ensures NoDoubleSpace(s) ==> CollapseDoubleSpaces(s) == s
    ensures !NoDoubleSpace(s) ==> |CollapseDoubleSpaces(s)| < |s|
  {
    if |s| >= 2 && !(s[0] == ' ' && s[1] == ' ') {
      NoDoubleSpaceTail(s);
      CollapseChangesOnlyDoubleSpaces(s[1..]);
      assert [s[0]] + s[1..] == s;
    }
  }

  /** n spaces. */
  function Spaces(n: nat): (r: string)
    ensures |r| == n
    ensures forall x :: 0 <= x < n ==> r[x] == ' '
  {
    if n == 0 then "" else " " + Spaces(n - 1)
  }

  /** Spaces(a + b) is Spaces(a) followed by Spaces(b). */
  lemma SpacesSplit(a: nat, b: nat)
    ensures Spaces(a + b) == Spaces(a) + Spaces(b)
  {
    assert Spaces(a + b) == Spaces(a) + Spaces(b);
  }

  /** A leading double space becomes one space. */
  lemma CollapsePair(u: string)
    ensures CollapseDoubleSpaces("  " + u) == " " + CollapseDoubleSpaces(u)
  {
    assert ("  " + u)[2..] == u;
  }

  /** A lone space before a non-space is kept. */
  lemma CollapseLoneSpace(c: char, u: string)
    requires c != ' '
    ensures CollapseDoubleSpaces(" " + ([c] + u)) == " " + CollapseDoubleSpaces([c] + u)
  {
    assert (" " + ([c] + u))[1..] == [c] + u;
  }

  /** An even run of 2k spaces at the front collapses to k spaces, whatever follows. */
  lemma {:induction false} CollapseEvenRun(k: nat, u: string)
    ensures CollapseDoubleSpaces(Spaces(2 * k) + u) == Spaces(k) + CollapseDoubleSpaces(u)
  {
    if k == 0 {
      assert Spaces(0) + u == u;
    } else {
      var v := Spaces(2 * k - 2) + u;
      var w := CollapseDoubleSpaces(u);
      calc {
        CollapseDoubleSpaces(Spaces(2 * k) + u);
        { assert Spaces(2 * k) + u == "  " + v by { assert Spaces(2 * k) == "  " + Spaces(2 * k - 2); } }
        CollapseDoubleSpaces("  " + v);
        { CollapsePair(v); }
        " " + CollapseDoubleSpaces(v);
        { CollapseEvenRun(k - 1, u); }
        " " + (Spaces(k - 1) + w);
        { assert Spaces(k) == " " + Spaces(k - 1); }
        Spaces(k) + w;
      }
    }
  }

  /**
   * An odd run of 2k + 1 spaces that ends at a non-space collapses to k + 1
   * spaces: the last space of the run has no partner and is kept.
   */
  lemma CollapseOddRun(k: nat, c: char, t: string)
    requires c != ' '
    ensures CollapseDoubleSpaces(Spaces(2 * k + 1) + ([c] + t)) == Spaces(k + 1) + CollapseDoubleSpaces([c] + t)
  {
    var u := [c] + t;
    var w := CollapseDoubleSpaces(u);
    calc {
      CollapseDoubleSpaces(Spaces(2 * k + 1) + u);
      { SpacesSplit(2 * k, 1); assert Spaces(1) == " "; }
      CollapseDoubleSpaces((Spaces(2 * k) + " ") + u);
      { assert (Spaces(2 * k) + " ") + u == Spaces(2 * k) + (" " + u); }
      CollapseDoubleSpaces(Spaces(2 * k) + (" " + u));
      { CollapseEvenRun(k, " " + u); }
      Spaces(k) + CollapseDoubleSpaces(" " + u);
      { CollapseLoneSpace(c, t); }
      Spaces(k) + (" " + w);
      (Spaces(k) + " ") + w;
      { SpacesSplit(k, 1); assert Spaces(1) == " "; }
      Spaces(k + 1) + w;
    }
  }

  /** A leading non-space is copied and the scan goes on right after it. */
  lemma CollapseNonSpaceHead(c: char, t: string)
    requires c != ' '
    ensures CollapseDoubleSpaces([c] + t) == [c] + CollapseDoubleSpaces(t)
  {
    if |t| == 0 {
      assert [c] + t == [c];
    } else {
      assert ([c] + t)[1..] == t;
    }
  }

  /** The padded day of a timestamp such as "Jan  5": the double space becomes one. */
  lemma CollapsePaddedDayExample()
    ensures CollapseDoubleSpaces("Jan  5") == "Jan 5"
  {
    CollapseNonSpaceHead('J', "an  5");
    CollapseNonSpaceHead('a', "n  5");
    CollapseNonSpaceHead('n', "  5");
    CollapsePair("5");
  }
}

=== FILE: report.dfy ===
/**
 * Report rendering (`Utils.makeReport`): one line per pair, in list order,
 * each filled in from `REPORT_PATTERN` and ended by the line separator. An
 * absent side shows the placeholder for both its time and its full line.
 */
module Reports {
  import opened Wrappers
  import opened LogTypes
  import opened LogEntries
  import opened Pairing

  /** Shown for the time and the full line of an absent side. */
  const Placeholder: string := " --- "

  /** `System.lineSeparator()`, fixed to the Unix value. */
  const LineSeparator: string := "\n"

  /** The five values `REPORT_PATTERN` is filled with. */
  datatype ReportFields = ReportFields(startTime: string, endTime: string, id: string, startLine: string, endLine: string)

  /**
   * The values for one pair. The id is the admission's when there is one,
   * else the discharge's; a pair with neither side would make the source
   * throw, so at least one side must be present.
   */
  function Fields(p: Pair): (f: ReportFields)
    requires Filled(p)
    ensures p.start.None? ==> f.startTime == Placeholder && f.startLine == Placeholder
    ensures p.start.Some? ==> f.startTime == p.start.value.timeStamp && f.startLine == p.start.value.fullLine
    ensures p.end.None? ==> f.endTime == Placeholder && f.endLine == Placeholder
    ensures p.end.Some? ==> f.endTime == p.end.value.timeStamp && f.endLine == p.end.value.fullLine
    ensures (p.start.Some? && f.id == p.start.value.id) || (p.start.None? && f.id == p.end.value.id)
  {
    ReportFields(
      if p.start.Some? then p.start.value.timeStamp else Placeholder,
      if p.end.Some? then p.end.value.timeStamp else Placeholder,
      if p.start.Some? then p.start.value.id else p.end.value.id,
      if p.start.Some? then p.start.value.fullLine else Placeholder,
      if p.end.Some? then p.end.value.fullLine else Placeholder)
  }

  /** `String.format(REPORT_PATTERN, ...)`: every `%s` replaced by its string argument. */
  function FormatLine(f: ReportFields): string {
    "Start time: " + f.startTime + ", End time: " + f.endTime + ", ID: " + f.id
    + ", Start full line: " + f.startLine + ", End full line: " + f.endLine + "."
  }

  function RenderPair(p: Pair): string
    requires Filled(p)
  {
    FormatLine(Fields(p))
  }

  /** Each pair's line, in list order. */
  function RenderAll(pairs: seq<Pair>): (r: seq<string>)
    requires forall p :: p in pairs ==> Filled(p)
    ensures |r| == |pairs|
    ensures forall k :: 0 <= k < |pairs| ==> r[k] == RenderPair(pairs[k])
  {
    if |pairs| == 0 then [] else [RenderPair(pairs[0])] + RenderAll(pairs[1..])
  }

  /** Every line followed by the separator, all concatenated. */
  function Terminate(lines: seq<string>): string {
    if |lines| == 0 then "" else lines[0] + LineSeparator + Terminate(lines[1..])
  }

  /** The report text: each pair's line followed by the separator, in list order. */
  function MakeReport(pairs: seq<Pair>): (r: string)
    requires forall p :: p in pairs ==> Filled(p)
    ensures r == "" <==> |pairs| == 0
    ensures |pairs| > 0 ==> |r| > 0 && r[|r| - 1] == '\n'
  {
    var lines := RenderAll(pairs);
    if |lines| > 0 then TerminateEndsWithSeparator(lines); Terminate(lines) else Terminate(lines)
  }

  /** The last line is terminated too: the text of at least one line ends with the separator. */
  lemma {:induction false} TerminateEndsWithSeparator(lines: seq<string>)
    requires |lines| > 0
    ensures var t := Terminate(lines); |t| > 0 && t[|t| - 1] == '\n'
  {
    if |lines| > 1 {
      TerminateEndsWithSeparator(lines[1..]);
    }
  }

  // ---------------------------------------------------------------------
  // Reading the report back as lines
  // ---------------------------------------------------------------------

  /** Index of the first newline of s, or |s|. */
  function NewlineIndex(s: string): (i: nat)
    ensures i <= |s|
    ensures i < |s| ==> s[i] == '\n'
    ensures forall j :: 0 <= j < i ==> s[j] != '\n'
  {
    if |s| == 0 then 0
    else if s[0] == '\n' then 0
    else 1 + NewlineIndex(s[1..])
  }

  /** The lines of a text: each ends at a newline, which is dropped; an unterminated last piece is a line too. */
  function SplitLines(s: string): seq<string>
    decreases |s|
  {
    if |s| == 0 then []
    else
      var i := NewlineIndex(s);
      if i == |s| then [s] else [s[..i]] + SplitLines(s[i + 1..])
  }

  /** A newline-free line followed by a newline splits off as one line. */
  lemma SplitLinesCons(line: string, rest: string)
    requires '\n' !in line
    ensures SplitLines(line + LineSeparator + rest) == [line] + SplitLines(rest)
  {
    var s := line + LineSeparator + rest;
    var i := NewlineIndex(s);
    assert s[|line|] == '\n';
    assert i == |line|;
    assert s[..i] == line;
    assert s[i + 1..] == rest;
  }

  /** No text field of a present side spans a line break. */
  predicate OnOneLine(p: Pair) {
    && (p.start.Some? ==> '\n' !in p.start.value.fullLine + p.start.value.timeStamp + p.start.value.id)
    && (p.end.Some? ==> '\n' !in p.end.value.fullLine + p.end.value.timeStamp + p.end.value.id)
  }

  lemma RenderPairOnOneLine(p: Pair)
    requires Filled(p) && OnOneLine(p)
    ensures '\n' !in RenderPair(p)
  {
    var f := Fields(p);
    assert '\n' !in Placeholder;
    assert '\n' !in f.startTime && '\n' !in f.endTime && '\n' !in f.id;
    assert '\n' !in f.startLine && '\n' !in f.endLine;
    assert '\n' !in "Start time: " && '\n' !in ", End time: " && '\n' !in ", ID: ";
    assert '\n' !in ", Start full line: " && '\n' !in ", End full line: " && '\n' !in ".";
  }

  /** Newline-free lines, each terminated and concatenated, read back as the same lines. */
  lemma {:induction false} SplitTerminated(lines: seq<string>)
    requires forall l :: l in lines ==> '\n' !in l
    ensures SplitLines(Terminate(lines)) == lines
  {
    if |lines| > 0 {
      assert lines[0] in lines;
      SplitLinesCons(lines[0], Terminate(lines[1..]));
      SplitTerminated(lines[1..]);
    }
  }

  /**
   * When no entry text holds a newline, the report reads back as exactly
   * one line per pair, in list order, each the pair's rendering.
   */
  lemma ReportHasOneLinePerPair(pairs: seq<Pair>)
    requires forall p :: p in pairs ==> Filled(p) && OnOneLine(p)
    ensures |SplitLines(MakeReport(pairs))| == |pairs|
    ensures forall k :: 0 <= k < |pairs| ==> SplitLines(MakeReport(pairs))[k] == RenderPair(pairs[k])
  {
    var lines := RenderAll(pairs);
    forall l | l in lines
      ensures '\n' !in l
    {
      var k :| 0 <= k < |lines| && lines[k] == l;
      assert pairs[k] in pairs;
      RenderPairOnOneLine(pairs[k]);
    }
    SplitTerminated(lines);
  }

  /** Scenario: a discharge without admission shows the placeholder on the start side and its own id. */
  lemma OpenStartScenario()
    ensures var d := Entry(PatientDischarged, "Jan 5 09:00:00 2023 patient discharged 12-AB-xyz",
                           "Jan 5 09:00:00 2023", "12-AB-xyz", 9);
            Fields(Pair(None, Some(d))) ==
              ReportFields(Placeholder, "Jan 5 09:00:00 2023", "12-AB-xyz", Placeholder,
                           "Jan 5 09:00:00 2023 patient discharged 12-AB-xyz")
  {
  }
}

=== FILE: runner.dfy ===
/**
 * The pipeline of `Runner.main` once the files are known: read every file,
 * sort the entries by instant, group them by id, pair each group with
 * discharges as the primary category and admissions as the secondary one,
 * sort the pairs, render the report and count the pairs.
 *
 * `groupingBy` collects into a `HashMap`, whose iteration order is not
 * specified; the groups are visited here in an explicit order, and the
 * results hold for every order that lists each id once.
 */
module Runner {
  import opened Wrappers
  import opened LogTypes
  import opened LogEntries
  import opened Sorting
  import opened Pairing
  import opened Reports
  import opened Loader
  import opened Patterns
  import opened SeqFacts

  /** `LogEntry::getTimestamp`: the key the entries are sorted by. */
  function Instant(e: Entry): int {
    e.instant
  }

  /** No element occurs twice. */
  predicate NoDuplicates<T(==)>(s: seq<T>) {
    forall i, j :: 0 <= i < j < |s| ==> s[i] != s[j]
  }

  /** One list of `groupingBy(LogEntry::getId)`: the entries with this id, in list order. */
  function GroupOf(es: seq<Entry>, id: string): (r: seq<Entry>)
    ensures forall e :: e in r <==> e in es && e.id == id
    ensures |r| <= |es|
  {
    if |es| == 0 then []
    else
      assert es == [es[0]] + es[1..];
      (if es[0].id == id then [es[0]] else []) + GroupOf(es[1..], id)
  }

  /** A group of sorted entries is sorted: grouping keeps list order. */
  lemma {:induction false} GroupOfSorted(es: seq<Entry>, id: string)
    requires SortedBy(es, Instant)
    ensures SortedBy(GroupOf(es, id), Instant)
  {
    if |es| > 0 {
      SortedTail(es, Instant);
      GroupOfSorted(es[1..], id);
      if es[0].id == id {
        var rest := GroupOf(es[1..], id);
        forall e | e in rest
          ensures Instant(es[0]) <= Instant(e)
        {
          var k :| 0 <= k < |es[1..]| && es[1..][k] == e;
          assert es[k + 1] == e;
        }
        SortedCons(es[0], rest, Instant);
      }
    }
  }

  /** The ids of the entries, each once: the key set of the grouping map. */
  function Ids(es: seq<Entry>): (r: seq<string>)
    ensures forall id :: id in r <==> exists e :: e in es && e.id == id
    ensures NoDuplicates(r)
  {
    if |es| == 0 then []
    else
      var rest := Ids(es[1..]);
      assert forall e :: e in es <==> e == es[0] || e in es[1..] by {
        assert es == [es[0]] + es[1..];
      }
      if es[0].id in rest then rest
      else
        var r := [es[0].id] + rest;
        assert NoDuplicates(r) by {
          forall i, j | 0 <= i < j < |r|
            ensures r[i] != r[j]
          {
            assert r[j] == rest[j - 1] && rest[j - 1] in rest;
            if i > 0 {
              assert r[i] == rest[i - 1];
            }
          }
        }
        r
  }

  /** `order` lists every id of the entries exactly once, as the key set of the map does. */
  ghost predicate IsIdOrder(es: seq<Entry>, order: seq<string>) {
    NoDuplicates(order) && forall id :: id in order <==> exists e :: e in es && e.id == id
  }

  /** When both sides are present they belong to the same patient. */
  predicate SameId(p: Pair) {
    p.start.Some? && p.end.Some? ==> p.start.value.id == p.end.value.id
  }

  /** What a pair of the final list promises about the entries it was drawn from. */
  ghost predicate WellFormedPair(p: Pair, es: seq<Entry>) {
    Filled(p) && Ordered(p) && SameId(p) && DrawnFrom(p, es, PatientDischarged, NewPatient)
  }

  /**
   * The `forEach` over the groups: each group's pairs, discharges as the
   * primary category and admissions as the secondary one, appended in the
   * order the groups are visited.
   */
  function PairGroups(sorted: seq<Entry>, order: seq<string>): (r: seq<Pair>)
    ensures forall p :: p in r ==> WellFormedPair(p, sorted)
  {
    if |order| == 0 then []
    else
      var g := GroupOf(sorted, order[0]);
      var ps := ExtractPairs(g, PatientDischarged, NewPatient);
      ExtractPairsFilled(g, PatientDischarged, NewPatient);
      var rest := PairGroups(sorted, order[1..]);
      assert forall p :: p in ps ==> WellFormedPair(p, sorted) by {
        forall p | p in ps
          ensures WellFormedPair(p, sorted)
        {
          assert DrawnFrom(p, g, PatientDischarged, NewPatient);
        }
      }
      ps + rest
  }

  /**
   * The pair comparator's key: the admission's instant when there is an
   * admission, else the discharge's. A pair with neither side would make
   * the comparator throw; no such pair is ever built (`PairGroups` only
   * yields filled pairs), and the key is 0 for it.
   */
  function PairKey(p: Pair): int {
    if p.start.Some? then p.start.value.instant
    else if p.end.Some? then p.end.value.instant
    else 0
  }

  /**
   * Lines 19-28 of `main`: sort the entries by instant, pair each id's
   * group, and sort the pairs by their key. The result is a rearrangement
   * of the grouped pairs, in key order, every pair well formed.
   */
  function MatchPairs(es: seq<Entry>, order: seq<string>): (r: seq<Pair>)
    ensures multiset(r) == multiset(PairGroups(Sort(es, Instant), order))
    ensures SortedBy(r, PairKey)
    ensures forall p :: p in r ==> WellFormedPair(p, es)
  {
    var sorted := Sort(es, Instant);
    var ps := PairGroups(sorted, order);
    var r := Sort(ps, PairKey);
    WellFormedRearranged(ps, r, sorted, es);
    r
  }

  /** Rearranging the pairs, or the entries they are drawn from, keeps every pair well formed. */
  lemma WellFormedRearranged(ps: seq<Pair>, r: seq<Pair>, sorted: seq<Entry>, es: seq<Entry>)
    requires multiset(r) == multiset(ps) && multiset(sorted) == multiset(es)
    requires forall p :: p in ps ==> WellFormedPair(p, sorted)
    ensures forall p :: p in r ==> WellFormedPair(p, es)
  {
    forall p | p in r
      ensures WellFormedPair(p, es)
    {
      assert p in multiset(r);
      assert p in ps;
      assert p.start.Some? ==> p.start.value in multiset(sorted);
      assert p.end.Some? ==> p.end.value in multiset(sorted);
    }
  }

  /** The sorted pairs, the report text, and the count printed as "Total lines". */
  datatype Outcome = Outcome(pairs: seq<Pair>, report: string, total: nat)

  /**
   * Lines 19-34 of `main` once the entries are read: the pairs are matched
   * with the groups visited in the order of `Ids` of the sorted entries,
   * rendered, and counted.
   */
  function Finish(es: seq<Entry>): (o: Outcome)
    ensures o.total == |o.pairs|
    ensures SortedBy(o.pairs, PairKey)
    ensures forall p :: p in o.pairs ==> WellFormedPair(p, es)
  {
    var pairs := MatchPairs(es, Ids(Sort(es, Instant)));
    Outcome(pairs, MakeReport(pairs), |pairs|)
  }

  /**
   * `main` from the list of files on: the first line that cannot be read
   * as an entry aborts the run; otherwise the entries go through `Finish`.
   */
  function Run(files: seq<seq<string>>, parse: DateParser): (r: Result<Outcome, LineError>)
    ensures r.Err? <==> exists i :: 0 <= i < |files| && ReadLogFile(files[i], Values, parse).Err?
    ensures r.Err? ==> exists i :: 0 <= i < |files| && ReadLogFile(files[i], Values, parse) == Err(r.error)
                                   && forall j :: 0 <= j < i ==> ReadLogFile(files[j], Values, parse).Ok?
    ensures r.Ok? ==> r.value.total == |r.value.pairs|
    ensures r.Ok? ==> SortedBy(r.value.pairs, PairKey)
    ensures r.Ok? ==> forall p :: p in r.value.pairs ==> WellFormedPair(p, ReadFiles(files, parse).value)
  {
    match ReadFiles(files, parse)
    case Err(err) => Err(err)
    case Ok(es) => Ok(Finish(es))
  }

  // ---------------------------------------------------------------------
  // The report and the count
  // ---------------------------------------------------------------------

  /**
   * The printed count is the number of report lines: when no input line
   * holds a newline (`Files.lines` splits them off), the report reads back
   * as one line per pair, in the order of the sorted pairs.
   */
  lemma ReportLinesMatchTotal(files: seq<seq<string>>, parse: DateParser)
    requires forall i, l :: 0 <= i < |files| && l in files[i] ==> '\n' !in l
    requires Run(files, parse).Ok?
    ensures var o := Run(files, parse).value;
            && |SplitLines(o.report)| == o.total == |o.pairs|
            && forall k :: 0 <= k < o.total ==> Filled(o.pairs[k]) && SplitLines(o.report)[k] == RenderPair(o.pairs[k])
  {
    var es := ReadFiles(files, parse).value;
    assert Run(files, parse).value == Finish(es);
    EntriesOnOneLine(files, es);
    FinishReportLines(es);
  }

  /** The report of entries without newlines has one line per pair. */
  lemma FinishReportLines(es: seq<Entry>)
    requires forall e :: e in es ==> CleanFields(e) && '\n' !in e.fullLine
    ensures var o := Finish(es);
            && |SplitLines(o.report)| == o.total == |o.pairs|
            && forall k :: 0 <= k < o.total ==> Filled(o.pairs[k]) && SplitLines(o.report)[k] == RenderPair(o.pairs[k])
  {
    var o := Finish(es);
    assert o.report == MakeReport(o.pairs);
    PairsOnOneLine(o.pairs, es);
    ReportHasOneLinePerPair(o.pairs);
  }

  /** Entries read from newline-free lines hold no newline in any text field. */
  lemma EntriesOnOneLine(files: seq<seq<string>>, es: seq<Entry>)
    requires forall i, l :: 0 <= i < |files| && l in files[i] ==> '\n' !in l
    requires forall e :: e in es ==> ReadFrom(e, files)
    ensures forall e :: e in es ==> CleanFields(e) && '\n' !in e.fullLine
  {
    forall e | e in es
      ensures CleanFields(e) && '\n' !in e.fullLine
    {
      var i :| 0 <= i < |files| && EntryOfFile(e, files[i], Values);
    }
  }

  /** Pairs drawn from entries whose texts hold no newline render on one line each. */
  lemma PairsOnOneLine(pairs: seq<Pair>, es: seq<Entry>)
    requires forall e :: e in es ==> CleanFields(e) && '\n' !in e.fullLine
    requires forall p :: p in pairs ==> WellFormedPair(p, es)
    ensures forall p :: p in pairs ==> Filled(p) && OnOneLine(p)
  {
    assert IsLineTerminator('\n');
  }

  // ---------------------------------------------------------------------
  // Sorted groups
  // ---------------------------------------------------------------------

  /** Filtering keeps a sorted list sorted. */
  lemma {:induction false} EarlierSorted(g: seq<Entry>, t: LogType, bound: int)
    requires SortedBy(g, Instant)
    ensures SortedBy(Earlier(g, t, bound), Instant)
  {
    if |g| > 0 {
      SortedTail(g, Instant);
      EarlierSorted(g[1..], t, bound);
      if EarlierOfKind(g[0], t, bound) {
        var rest := Earlier(g[1..], t, bound);
        forall e | e in rest
          ensures Instant(g[0]) <= Instant(e)
        {
          var k :| 0 <= k < |g[1..]| && g[1..][k] == e;
          assert g[k + 1] == e;
        }
        SortedCons(g[0], rest, Instant);
      }
    }
  }

  /** The groups handed to the pairing engine are sorted by instant. */
  lemma GroupsAreSorted(es: seq<Entry>, id: string)
    ensures SortedBy(GroupOf(Sort(es, Instant), id), Instant)
  {
    GroupOfSorted(Sort(es, Instant), id);
  }

  /**
   * In a group sorted by instant, the admission matched with the first
   * discharge, the first in list order among the admissions strictly
   * before it, is also one with the earliest instant among them.
   */
  lemma MatchedAdmissionIsEarliest(g: seq<Entry>, i: int)
    requires SortedBy(g, Instant) && FirstOfKindAt(g, i, PatientDischarged)
    ensures var r := ExtractPairs(g, PatientDischarged, NewPatient);
            && |r| > 0 && r[0].end == Some(g[i])
            && (r[0].start.Some? ==>
                  forall e :: e in g && EarlierOfKind(e, NewPatient, g[i].instant) ==> r[0].start.value.instant <= e.instant)
  {
    var earlier := Earlier(g, NewPatient, g[i].instant);
    assert FirstOfKind(g, PatientDischarged) == i;
    var r := ExtractPairs(g, PatientDischarged, NewPatient);
    assert r[0] == Pair(if |earlier| > 0 then Some(earlier[0]) else None, Some(g[i]));
    if |earlier| > 0 {
      EarlierSorted(g, NewPatient, g[i].instant);
      forall e | e in g && EarlierOfKind(e, NewPatient, g[i].instant)
        ensures earlier[0].instant <= e.instant
      {
        var k :| 0 <= k < |earlier| && earlier[k] == e;
        if k > 0 {
          assert Instant(earlier[0]) <= Instant(earlier[k]);
        }
      }
    }
  }

  // ---------------------------------------------------------------------
  // Every discharge in the input ends exactly one pair
  // ---------------------------------------------------------------------

  lemma {:induction false} DischargesAppend(a: seq<Pair>, b: seq<Pair>)
    ensures Discharges(a + b) == Discharges(a) + Discharges(b)
  {
    if |a| > 0 {
      assert (a + b)[0] == a[0];
      assert (a + b)[1..] == a[1..] + b;
      DischargesAppend(a[1..], b);
    } else {
      assert a + b == b;
    }
  }

  /** Taking the same element out of two rearrangements of each other leaves rearrangements. */
  lemma RemoveMatching<T>(a: seq<T>, b: seq<T>, i: int)
    requires |a| > 0 && multiset(a) == multiset(b) && 0 <= i < |b| && b[i] == a[0]
    ensures multiset(a[1..]) == multiset(b[..i] + b[i + 1..])
  {
    var x := a[0];
    assert b == b[..i] + [x] + b[i + 1..];
    assert a == [x] + a[1..];
    forall y
      ensures multiset(a[1..])[y] == multiset(b[..i] + b[i + 1..])[y]
    {
      assert multiset(a)[y] == multiset{x}[y] + multiset(a[1..])[y];
      assert multiset(b)[y] == multiset(b[..i])[y] + multiset{x}[y] + multiset(b[i + 1..])[y];
    }
  }

  /** Taking one pair out of a list takes its discharge out of the list's discharges. */
  lemma DischargesRemove(b: seq<Pair>, i: int)
    requires 0 <= i < |b|
    ensures multiset(Discharges(b)) == multiset(Discharges([b[i]])) + multiset(Discharges(b[..i] + b[i + 1..]))
  {
    var pre, post := b[..i], b[i + 1..];
    assert b == pre + ([b[i]] + post);
    DischargesAppend(pre, [b[i]] + post);
    DischargesAppend([b[i]], post);
    DischargesAppend(pre, post);
    var before, mid, after := Discharges(pre), Discharges([b[i]]), Discharges(post);
    assert Discharges(b) == before + (mid + after);
    assert multiset(before + (mid + after)) == multiset(mid) + multiset(before + after);
  }

  /** Rearranging the pairs rearranges their discharges. */
  lemma {:induction false} DischargesPermutation(a: seq<Pair>, b: seq<Pair>)
    requires multiset(a) == multiset(b)
    ensures multiset(Discharges(a)) == multiset(Discharges(b))
    decreases |a|
  {
    if |a| == 0 {
      assert |b| == |multiset(b)| == 0;
    } else {
      var x := a[0];
      assert x in multiset(b);
      var i :| 0 <= i < |b| && b[i] == x;
      var b' := b[..i] + b[i + 1..];
      RemoveMatching(a, b, i);
      DischargesPermutation(a[1..], b');
      DischargesRemove(b, i);
      assert multiset(Discharges(a)) == multiset(Discharges([x])) + multiset(Discharges(a[1..])) by {
        DischargesRemove(a, 0);
        assert a[..0] + a[1..] == a[1..];
      }
    }
  }

  /** Each visited group's discharges, in the order the groups are visited. */
  function GroupedKind(s: seq<Entry>, order: seq<string>, t: LogType): seq<Entry> {
    if |order| == 0 then [] else OfKind(GroupOf(s, order[0]), t) + GroupedKind(s, order[1..], t)
  }

  /** A group of entries with distinct lines has distinct lines. */
  lemma {:induction false} GroupOfDistinct(s: seq<Entry>, id: string)
    requires DistinctLines(s)
    ensures DistinctLines(GroupOf(s, id))
  {
    if |s| > 0 {
      assert DistinctLines(s[1..]);
      GroupOfDistinct(s[1..], id);
      if s[0].id == id {
        var rest := GroupOf(s[1..], id);
        forall e | e in rest
          ensures e.fullLine != s[0].fullLine
        {
          var k :| 0 <= k < |s[1..]| && s[1..][k] == e;
          assert s[k + 1] == e;
        }
        DistinctCons(s[0], rest);
      }
    }
  }

  /** The grouped pairs end in each group's discharges, group by group. */
  lemma {:induction false} PairGroupsDischarges(s: seq<Entry>, order: seq<string>)
    requires DistinctLines(s)
    ensures Discharges(PairGroups(s, order)) == GroupedKind(s, order, PatientDischarged)
    decreases |order|
  {
    if |order| > 0 {
      var g := GroupOf(s, order[0]);
      GroupOfDistinct(s, order[0]);
      EveryDischargePairedOnce(g, PatientDischarged, NewPatient);
      PairGroupsDischarges(s, order[1..]);
      DischargesAppend(ExtractPairs(g, PatientDischarged, NewPatient), PairGroups(s, order[1..]));
    }
  }

  lemma {:induction false} OfKindCount(g: seq<Entry>, t: LogType, e: Entry)
    ensures multiset(OfKind(g, t))[e] == if e.kind == t then multiset(g)[e] else 0
  {
    if |g| > 0 {
      assert g == [g[0]] + g[1..];
      OfKindCount(g[1..], t, e);
    }
  }

  lemma {:induction false} GroupOfCount(s: seq<Entry>, id: string, e: Entry)
    ensures multiset(GroupOf(s, id))[e] == if e.id == id then multiset(s)[e] else 0
  {
    if |s| > 0 {
      assert s == [s[0]] + s[1..];
      GroupOfCount(s[1..], id, e);
    }
  }

  lemma NoDuplicatesTail<T>(s: seq<T>)
    requires |s| > 0 && NoDuplicates(s)
    ensures NoDuplicates(s[1..]) && s[0] !in s[1..]
  {
    forall i, j | 0 <= i < j < |s[1..]|
      ensures s[1..][i] != s[1..][j]
    {
      assert s[1..][i] == s[i + 1] && s[1..][j] == s[j + 1];
    }
  }

  /** With each id visited once, an entry shows up in the grouped list as often as in the input, if its id is visited. */
  lemma {:induction false} GroupedKindCount(s: seq<Entry>, order: seq<string>, t: LogType, e: Entry)
    requires NoDuplicates(order)
    ensures multiset(GroupedKind(s, order, t))[e] == if e.id in order && e.kind == t then multiset(s)[e] else 0
    decreases |order|
  {
    if |order| > 0 {
      var head := OfKind(GroupOf(s, order[0]), t);
      var tail := GroupedKind(s, order[1..], t);
      var c := multiset(s)[e];
      assert multiset(head)[e] == if e.id == order[0] && e.kind == t then c else 0 by {
        OfKindCount(GroupOf(s, order[0]), t, e);
        GroupOfCount(s, order[0], e);
      }
      assert multiset(tail)[e] == if e.id in order[1..] && e.kind == t then c else 0 by {
        NoDuplicatesTail(order);
        GroupedKindCount(s, order[1..], t, e);
      }
      assert order[0] !in order[1..] by {
        NoDuplicatesTail(order);
      }
      assert multiset(GroupedKind(s, order, t))[e] == multiset(head)[e] + multiset(tail)[e] by {
        assert GroupedKind(s, order, t) == head + tail;
      }
      assert e.id in order <==> e.id == order[0] || e.id in order[1..] by {
        HeadTail(order);
      }
    }
  }

  /** Distinct lines mean no entry occurs twice. */
  lemma {:induction false} DistinctLinesOnce(a: seq<Entry>, e: Entry)
    requires DistinctLines(a)
    ensures multiset(a)[e] <= 1
  {
    if |a| > 0 {
      assert a == [a[0]] + a[1..];
      assert DistinctLines(a[1..]);
      DistinctLinesOnce(a[1..], e);
    }
  }

  /** An element at two positions occurs at least twice. */
  lemma TwiceAtTwoPositions(b: seq<Entry>, i: int, j: int)
    requires 0 <= i < j < |b| && b[i] == b[j]
    ensures multiset(b)[b[i]] >= 2
  {
    assert b == b[..j] + [b[j]] + b[j + 1..];
    assert b[i] in b[..j];
  }

  /** Rearranging entries with distinct lines keeps the lines distinct. */
  lemma DistinctLinesPermutation(a: seq<Entry>, b: seq<Entry>)
    requires DistinctLines(a) && multiset(a) == multiset(b)
    ensures DistinctLines(b)
  {
    forall i, j | 0 <= i < j < |b|
      ensures b[i].fullLine != b[j].fullLine
    {
      if b[i].fullLine == b[j].fullLine {
        assert b[i] in multiset(a) && b[j] in multiset(a);
        SameLineSameEntry(a, b[i], b[j]);
        TwiceAtTwoPositions(b, i, j);
        DistinctLinesOnce(a, b[i]);
        assert false;
      }
    }
  }

  /**
   * With distinct input lines and each id visited once, the discharges of
   * the final pair list are the discharges of the input, each once: every
   * discharge is reported in exactly one pair.
   */
  lemma EveryDischargeReportedOnce(es: seq<Entry>, order: seq<string>)
    requires DistinctLines(es) && IsIdOrder(es, order)
    ensures multiset(Discharges(MatchPairs(es, order))) == multiset(OfKind(es, PatientDischarged))
  {
    var sorted := Sort(es, Instant);
    DistinctLinesPermutation(es, sorted);
    PairGroupsDischarges(sorted, order);
    DischargesPermutation(MatchPairs(es, order), PairGroups(sorted, order));
    forall e
      ensures multiset(GroupedKind(sorted, order, PatientDischarged))[e] == multiset(OfKind(es, PatientDischarged))[e]
    {
      GroupedKindCount(sorted, order, PatientDischarged, e);
      OfKindCount(es, PatientDischarged, e);
      if e.kind == PatientDischarged && multiset(es)[e] > 0 {
        assert e in es;
      }
    }
  }

  /**
   * The pipeline itself: with distinct lines, the pairs `main` reports hold
   * every discharge of the input exactly once, for the id order `Finish`
   * visits the groups in.
   */
  lemma FinishReportsEveryDischargeOnce(es: seq<Entry>)
    requires DistinctLines(es)
    ensures multiset(Discharges(Finish(es).pairs)) == multiset(OfKind(es, PatientDischarged))
  {
    var sorted := Sort(es, Instant);
    var order := Ids(sorted);
    assert IsIdOrder(es, order) by {
      forall id
        ensures id in order <==> exists e :: e in es && e.id == id
      {
        if id in order {
          var e :| e in sorted && e.id == id;
          assert multiset(sorted)[e] > 0;
        } else {
          forall e | e in es
            ensures e.id != id
          {
            assert multiset(es)[e] > 0;
            assert e in sorted;
          }
        }
      }
    }
    EveryDischargeReportedOnce(es, order);
  }
}

=== FILE: seq_facts.dfy ===
/** Small facts about sequences that several modules lean on. */
module SeqFacts {

  /** A non-empty sequence is its head followed by its tail. */
  lemma HeadTail<T>(s: seq<T>)
    requires |s| > 0
    ensures s == [s[0]] + s[1..]
  {
  }
}

=== FILE: sorting.dfy ===
/**
 * Stable sorting by an integer key: the model of `List.sort` with a
 * comparator that compares one key (`Comparator.comparing`, and the pair
 * comparator). `List.sort` is a stable merge sort; insertion sort that
 * puts each element before the first element whose key is not smaller is
 * stable too, and only the result matters here.
 */
module Sorting {
  import opened SeqFacts

  /** Keys never decrease along the sequence. */
  ghost predicate SortedBy<T>(s: seq<T>, key: T -> int) {
    forall i, j :: 0 <= i < j < |s| ==> key(s[i]) <= key(s[j])
  }

  /** The elements whose key is k, in their order in s. */
  function WithKey<T>(s: seq<T>, key: T -> int, k: int): (r: seq<T>)
    ensures |r| <= |s|
  {
    if |s| == 0 then []
    else (if key(s[0]) == k then [s[0]] else []) + WithKey(s[1..], key, k)
  }

  /** Places x before the first element whose key is at least x's. */
  function Insert<T>(x: T, s: seq<T>, key: T -> int): (r: seq<T>)
    ensures multiset(r) == multiset(s) + multiset{x}
    ensures SortedBy(s, key) ==> SortedBy(r, key)
  {
    if |s| == 0 || key(x) <= key(s[0]) then
      [x] + s
    else
      var rest := Insert(x, s[1..], key);
      assert multiset([s[0]] + rest) == multiset(s) + multiset{x} by {
        HeadTail(s);
      }
      assert SortedBy(s, key) ==> SortedBy([s[0]] + rest, key) by {
        if SortedBy(s, key) {
          SortedTail(s, key);
          KeepsHeadFirst(x, s, rest, key);
        }
      }
      [s[0]] + rest
  }

  /** The head of a sorted s stays first when x, with a larger key, joins its tail. */
  lemma KeepsHeadFirst<T>(x: T, s: seq<T>, rest: seq<T>, key: T -> int)
    requires |s| > 0 && SortedBy(s, key) && key(s[0]) < key(x)
    requires SortedBy(rest, key) && multiset(rest) == multiset(s[1..]) + multiset{x}
    ensures SortedBy([s[0]] + rest, key)
  {
    forall y | y in rest
      ensures key(s[0]) <= key(y)
    {
      assert y in multiset(rest);
      if y != x {
        assert y in s[1..];
      }
    }
    SortedCons(s[0], rest, key);
  }

  /** Dropping the first element keeps a sequence sorted. */
  lemma SortedTail<T>(s: seq<T>, key: T -> int)
    requires |s| > 0 && SortedBy(s, key)
    ensures SortedBy(s[1..], key)
  {
    forall i, j | 0 <= i < j < |s[1..]|
      ensures key(s[1..][i]) <= key(s[1..][j])
    {
      assert s[1..][i] == s[i + 1] && s[1..][j] == s[j + 1];
    }
  }

  /** Prepending an element no larger than any other keeps a sequence sorted. */
  lemma SortedCons<T>(x: T, s: seq<T>, key: T -> int)
    requires SortedBy(s, key) && forall y :: y in s ==> key(x) <= key(y)
    ensures SortedBy([x] + s, key)
  {
    var r := [x] + s;
    forall i, j | 0 <= i < j < |r|
      ensures key(r[i]) <= key(r[j])
    {
      assert r[j] == s[j - 1] && s[j - 1] in s;
      if i > 0 {
        assert r[i] == s[i - 1];
      }
    }
  }

  /** Insertion sort. */
  function Sort<T>(s: seq<T>, key: T -> int): (r: seq<T>)
    ensures multiset(r) == multiset(s)
    ensures SortedBy(r, key)
  {
    if |s| == 0 then []
    else
      HeadTail(s);
      Insert(s[0], Sort(s[1..], key), key)
  }

  /** Inserting x adds it in front of the other elements with its key and changes no other key class. */
  lemma {:induction false} InsertKeepsKeyOrder<T>(x: T, s: seq<T>, key: T -> int, k: int)
    ensures WithKey(Insert(x, s, key), key, k) ==
              if key(x) == k then [x] + WithKey(s, key, k) else WithKey(s, key, k)
    decreases |s|
  {
    if |s| == 0 || key(x) <= key(s[0]) {
      assert ([x] + s)[1..] == s;
    } else {
      var rest := Insert(x, s[1..], key);
      assert ([s[0]] + rest)[1..] == rest;
      InsertKeepsKeyOrder(x, s[1..], key, k);
    }
  }

  /** The sort is stable: elements with equal keys keep their relative order. */
  lemma {:induction false} SortIsStable<T>(s: seq<T>, key: T -> int, k: int)
    ensures WithKey(Sort(s, key), key, k) == WithKey(s, key, k)
    decreases |s|
  {
    if |s| != 0 {
      SortIsStable(s[1..], key, k);
      InsertKeepsKeyOrder(s[0], Sort(s[1..], key), key, k);
    }
  }
}

=== FILE: wrappers.dfy ===
/**
 * Optional values and fallible results. `Option` stands in for a Java
 * reference that may be `null`; `Result` for a constructor or a read that
 * may throw.
 */
module Wrappers {

  datatype Option<T> = None | Some(value: T)

  datatype Result<T, E> = Ok(value: T) | Err(error: E)
}
